=== FILE: README.md ===
# Free-Proxy scraper core, modelled in Dafny

Free-Proxy is a small FastAPI service (`main.py`) with one job. It opens the
SOCKS proxy list on spys.one in a headless browser and reads the text of
every table row. It pulls an address and port, a protocol, a country, a
latency, a speed, an uptime and a "last checked" note out of each row with
regular expressions, then drops duplicate addresses. `/api/proxies` serves
the result from a cache that lives for 60 seconds.

This project models three parts of that code:

- the row parser;
- the scrape and its deduplication;
- the cache behind the endpoint.

Modules:

- `Text` (`text.dfy`) covers the ASCII character classes Python's `re` uses
  (`\d`, `\s`, `\w`) and case folding for `re.I`. It also covers greedy
  runs, `str.strip()`, and `str.split(sep)` with `str.join()` for a one-character separator.
- `Patterns` (`patterns.dfy`) has one matcher per regular expression of the
  row parser. It also has the leftmost search that `re.search` performs.
  Every repetition in these patterns is greedy. Every digit repetition but
  the port's is followed by something other than a digit, so a match at a
  given start position is decided without backtracking. The port's
  `\d{1,5}` ends the pattern and is capped at five digits, and the labelled
  speed figure is followed only by an optional unit group; both keep their
  whole run too. The one pattern that backtracks is the "Last checked" one.
  Its separator run `[:\s]*` takes line breaks as well as colons and spaces.
  It gives a character back only when it reaches the end of the text.
  `LastNonNewline` models that.
- `RowParser` (`row_parser.dfy`) has the `Proxy` record, one function per
  field, and `ParseRow`.
- `Scraper` (`scraper.dfy`) has the browser as an input (a failure message,
  or the rendered rows) and the loop that parses rows in order. It also has
  the loop that keeps the first record per `ip_port`, and `Scrape`.
- `ProxyApi` (`proxy_api.dfy`) has the request as a pure function `Handle`
  over the cache state, and the class `ProxyCache`. The class holds the
  fields `ts` and `data` and a `Request` method proved equal to `Handle`.

Three behaviours of the code are easy to miss:

- **Labelled speed with a space before `MB/s`.** The labelled pattern
  (main.py:107) allows a space only before `KB/s`, so `"Speed: 1.2 MB/s"`
  gives the speed `"1.2"`, not `"1.2 MB/s"`. See
  `RowParser.LabelledSpeedDropsUnit`.
- **Status 500 after an earlier success.** The stale fallback (main.py:176)
  tests whether the cached list is empty, not whether a scrape ever
  succeeded. So a failure after an earlier success that found no proxy
  gives status 500. See `ProxyApi.EmptyScrapeThenFailure`.
- **Last-checked note from the next line.** The separator run after the
  label (main.py:124) takes line breaks too. So when the label ends its
  line, the note comes from the later line where the run stops:
  `"Last checked:\nfoo"` gives the note `"foo"`. See
  `RowParser.LastCheckedCrossesLineBreak`.

## Model

| member | source | states |
|---|---|---|
| Text.Strip | main.py:69 | the stripped row is the text between the leading whitespace run and a trailing whitespace run, with no whitespace at either edge |
| Text.Split | main.py:76 | `split(sep)` gives at least one piece, and no piece holds the separator |
| Text.JoinSplit | main.py:76 | joining the pieces of `split(sep)` with `sep` gives back the text |
| Text.SplitJoin | main.py:76-78 | splitting a join of separator-free pieces gives back the pieces, so an address and a port splits at its one colon into two halves |
| Patterns.IpPortAt | main.py:71 | a match of the address-and-port pattern at `i` starts at `i` and lies inside the text |
| Patterns.IpPortAtSound | main.py:71 | what the address-and-port pattern matches at `i` is four dot-separated runs of 1 to 3 digits, a colon and 1 to 5 digits |
| Patterns.IpPortAtComplete | main.py:71 | every address and port starting at `i` is matched there, and the match's port is at least as long (greedy port) |
| Patterns.CountryAt | main.py:95 | the country pattern matches at `i` exactly when two upper-case letters stand there with no word character on either side, and it captures those two letters |
| Patterns.LatencyAt | main.py:101 | a latency match at `i` is 1 to 4 digits, one whitespace character and "ms" in any case |
| Patterns.LatencyAtComplete | main.py:101 | every such latency text starting at `i` is the match found there |
| Patterns.WordAt | main.py:82-86 | a whole-word match at `i` covers exactly the word, so the search of `RowParser.WordFound` reports where it stands |
| Patterns.LabelledSpeedAt | main.py:107 | a labelled speed match captures a non-empty stretch that starts after the five letters of the label |
| Patterns.LabelledSpeedAtSound | main.py:107 | a labelled speed match is "speed" in any case, a run of colons and whitespace, then a figure with an optional unit, and the figure's group is what is captured |
| Patterns.LabelledSpeedAtLongest | main.py:107 | the capture runs over the longest figure of digits and dots at its start and then exactly the unit `LabelUnit` takes there |
| Patterns.LabelUnitLongest | main.py:107 | the optional unit is taken whenever it is present: no longer unit starts where the figure ends |
| Patterns.LabelledSpeedAtComplete | main.py:107 | every "speed" label followed by separators and a digit or dot is matched, and the capture starts at that digit or dot |
| Patterns.BareSpeedAt | main.py:110 | a fallback speed match at `i` starts at `i` and lies inside the text |
| Patterns.BareSpeedAtSound | main.py:110 | a fallback speed match at `i` is a figure, an optional whitespace character and one of the five bandwidth units in any case |
| Patterns.BareSpeedAtComplete | main.py:110 | every figure, optional whitespace character and bandwidth unit that starts at `i` is exactly the match found there |
| Patterns.LabelledUptimeAt | main.py:116 | a labelled uptime match is "uptime" in any case and separators, and it captures the whole following run of digits, dots and percent signs |
| Patterns.LabelledUptimeAtComplete | main.py:116 | every "uptime" label followed by separators and a digit, dot or percent sign is matched, and the capture starts there |
| Patterns.BareUptimeAt | main.py:118 | a fallback uptime match at `i` is 1 to 3 digits and a percent sign |
| Patterns.BareUptimeAtComplete | main.py:118 | every percentage starting at `i` is the match found there |
| Patterns.LastCheckedAt | main.py:124 | a "last checked" match captures a non-empty stretch that starts after the twelve characters of the label |
| Patterns.RestOfLine | main.py:124 | what follows the label is captured as a non-empty stretch inside the text, or not at all |
| Patterns.LastNonNewline | main.py:124 | the position found is the last one up to `q` that is not a line break, and there is none only when every position from `p` to `q` is a line break; this is how the separator run gives a character back |
| Patterns.LastCheckedAtSound | main.py:124 | a "last checked" match is the label in any case and separators, and it captures a non-empty stretch with no line break that runs to the end of the line |
| Patterns.LastCheckedAtStart | main.py:124 | the capture starts right after the whole separator run when a character follows that run; otherwise it starts at the last separator that is not a line break |
| Patterns.LastCheckedAtComplete | main.py:124 | every label followed by separators and a character that is not a line break is matched |
| Patterns.Search | main.py:71 | the scan returns the first start from `from` at which the matcher succeeds, with that match, and it returns nothing only when the matcher succeeds nowhere up to `last` |
| Patterns.Find | main.py:71 | the search returns the leftmost start at which the pattern matches, and it returns nothing only when the pattern matches nowhere |
| Patterns.FindOccurs | main.py:71 | the search finds a match exactly when the pattern matches somewhere |
| Patterns.FindIsLeftmost | main.py:71 | a match at `i` with none before it is the one the search returns |
| RowParser.Kind | main.py:81-87 | the protocol is always "SOCKS5", "SOCKS4", "HTTP" or "" |
| RowParser.KindPriority | main.py:81-87 | the protocol is SOCKS5 if that word stands alone anywhere in any case, else SOCKS4, else HTTP, else "" |
| RowParser.WordFound | main.py:82 | a case-insensitive whole-word search succeeds exactly when the word occurs with no word character touching either end, so "HTTPS" or "socks5h" does not count |
| RowParser.Country | main.py:91-97 | the country is "" or two upper-case letters |
| RowParser.CountryIsLeftmost | main.py:95-97 | the country is the leftmost free-standing pair of upper-case letters |
| RowParser.CountryAbsent | main.py:95-97 | the country is "" exactly when no such pair occurs |
| RowParser.Latency | main.py:100-103 | the latency is "" or 1 to 4 digits, a whitespace character and "ms" |
| RowParser.LatencyIsLeftmost | main.py:101-103 | the latency is the leftmost latency text in the row |
| RowParser.LatencyAbsent | main.py:100-103 | the latency is "" exactly when no latency text occurs |
| RowParser.Speed | main.py:106-112 | the speed is "", a labelled figure or a fallback figure with its unit |
| RowParser.SpeedFallback | main.py:107-112 | a labelled speed wins when one occurs: the speed is then the labelled capture, a labelled figure. Otherwise the speed is the fallback capture, and it is "" exactly when neither pattern occurs |
| RowParser.SpeedIsFirstLabel | main.py:107-112 | the speed is the figure of the leftmost labelled speed |
| RowParser.LabelledSpeedDropsUnit | main.py:107 | "Speed: 1.2 MB/s" gives the speed "1.2" |
| RowParser.Uptime | main.py:115-120 | when an "uptime" label occurs, the uptime is a non-empty run of digits, dots and percent signs; otherwise it is "" or a percentage |
| RowParser.UptimePrefersLabel | main.py:116-120 | a labelled uptime wins when one occurs. The uptime is "" exactly when neither pattern occurs |
| RowParser.UptimeFallback | main.py:117-120 | with no labelled uptime, the uptime is the leftmost percentage |
| RowParser.LastChecked | main.py:123-126 | the last-checked note has no line break and no whitespace at either edge, and it is non-empty only when the label occurs |
| RowParser.LastCheckedIsFirstLabel | main.py:124-126 | the note is the stripped capture of the leftmost label |
| RowParser.LastCheckedTakesColon | main.py:124-126 | "Last checked:" gives the note ":", the colon that the separator run gives back |
| RowParser.LastCheckedUnspaced | main.py:124-126 | a capture of the leftmost label with no whitespace at either edge is the note unchanged |
| RowParser.LastCheckedCrossesLineBreak | main.py:124-126 | "Last checked:\nfoo" gives the note "foo": the separator run takes the line break, and the capture is the next line |
| RowParser.FirstAddress | main.py:71-75 | the captured address and port is four dot-separated octets, a colon and a port |
| RowParser.FirstAddressFound | main.py:71-73 | an address is found exactly when some slice of the text is an address and port |
| RowParser.FirstAddressLeftmostLongest | main.py:71-75 | the address found is the leftmost one, with the longest port starting there |
| RowParser.ParseRow | main.py:69-140 | a record's `ip_port` is an address and port and equals `ip + ":" + port`. `ip` is a dotted quad, `port` is 1 to 5 digits and `city` is "". `raw` is the first min(300, length) characters of the stripped row |
| RowParser.ParseRowKeeps | main.py:69-73 | a row gives a record exactly when its stripped text holds an address and a port |
| RowParser.ParseRowAddress | main.py:69-78 | the record's `ip_port` is the first address found in the stripped row |
| RowParser.ParseRowLeftmostLongest | main.py:71-78 | the record's `ip_port` is the leftmost address and port in the stripped row, with its port taken greedily |
| Scraper.Collect | main.py:68-73 | collecting the records of the rows never gives more records than rows |
| Scraper.ParseRows | main.py:68-140 | the row loop gives the records of the accepted rows, in row order |
| Scraper.CollectFromRows | main.py:68-140 | each record is the parse of a row, the records appear in the rows' order, and every row that parses is one of those rows |
| Scraper.CollectKeepsRow | main.py:71-140 | every row that parses gives its record |
| Scraper.ParsedRecords | main.py:75-131 | every scraped record's `ip_port` is an address and port that splits into `ip` and `port` |
| Scraper.KeepFirst | main.py:147-153 | the dedup loop, with its set of seen keys, yields the first record for each `ip_port` |
| Scraper.FirstOccurrences | main.py:147-153 | the deduplicated list is no longer than the input |
| Scraper.KeysHold | main.py:149-151 | a key is in the set of keys exactly when some record carries it |
| Scraper.FirstOccurrencesDistinct | main.py:147-153 | no two kept records share an `ip_port` |
| Scraper.FirstOccurrencesKeys | main.py:147-153 | every `ip_port` of the input is kept |
| Scraper.FirstOccurrencesIndices | main.py:147-153 | the kept records are a subsequence of the input, and each is the first input record with its `ip_port` |
| Scraper.FirstRecordKept | main.py:147-153 | the first record bearing each `ip_port` is kept |
| Scraper.FirstOccurrencesOfDistinct | main.py:147-153 | records with distinct keys are kept unchanged |
| Scraper.FirstOccurrencesIdempotent | main.py:147-153 | deduplicating twice is the same as once |
| Scraper.Scraped | main.py:143-155 | there is an error exactly when the browser failed, and then no record. A rendered page gives records with distinct `ip_port`s, and exactly the `ip_port`s of its parsed rows |
| Scraper.Scrape | main.py:51-155 | a browser failure gives its message and no record. A rendered page gives no error and the deduplicated records of its rows |
| Scraper.ScrapedShape | main.py:143-155 | a failure carries its message and an empty list. A success carries no error, at most one record per row, distinct keys, and records with a well-formed address and port |
| ProxyApi.Handle | main.py:169-208 | the cache changes only when a scrape is due and does not fail, and then holds that scrape stamped `now`. The status is 200 or 500. A 200 reply serves the cache as it then is, and a 500 reply serves no record and leaves an empty cache empty. Every reply carries the 60-second time to live and the source URL |
| ProxyApi.ProxyCache.constructor | main.py:33 | the cache starts with `ts` 0 and no record |
| ProxyApi.ProxyCache.Request | main.py:169-208 | a request changes the cache and replies exactly as `Handle` says, and the cache keeps distinct keys |
| ProxyApi.FreshCacheIgnoresBrowser | main.py:169-208 | within the time to live the browser is not consulted. The cache is served unchanged with status 200 and no error |
| ProxyApi.TtlBoundary | main.py:170 | at an age of exactly 60 seconds the cache is still served, and one second later a scrape is due |
| ProxyApi.FailedRefreshKeepsCache | main.py:173-195 | a failure with a message leaves the cache unchanged. With cached records it serves them and the message with status 200, stamped with the cache's time or with none when that is 0. Otherwise it serves no record with status 500, stamped `now` |
| ProxyApi.EmptyMessageCountsAsSuccess | main.py:173-198 | a failure whose message is empty is taken as success and empties the cache |
| ProxyApi.SuccessReplacesCache | main.py:197-208 | a rendered page refills the cache with its deduplicated records, which the reply serves with status 200, no error and the instant `now` |
| ProxyApi.Status500Iff | main.py:176-195 | the status is 500 exactly when a due scrape fails with a message while the cache is empty. Every other status is 200 |
| ProxyApi.EmptyScrapeThenFailure | main.py:176-195 | a scrape that found no proxy, then a failure after the time to live, gives status 500 |
| ProxyApi.ServedWithinTtl | main.py:170-208 | after a successful scrape, requests up to 60 seconds later serve the same records without scraping |
| ProxyApi.Gmt3IsShifted | main.py:38-43 | the GMT+3 instant is the UTC instant plus 10800 seconds, and both are present or both absent |
| ProxyApi.HandleKeepsDistinct | main.py:147-153 | neither the cache nor a reply ever holds two records with the same `ip_port` |

## Left out

- **The browser.** Playwright's launch, navigation, waits, row query,
  `inner_text` and close (main.py:53-67, 142) are foreign I/O. The browser
  is an input: a failure message, or the rendered row texts.
- **The web plumbing.** The FastAPI app, CORS middleware, static mount,
  index endpoint and server entry point (main.py:18-30, 210-221) are not
  modelled, and neither is JSON serialisation. A reply is a datatype.
- **Clock reads.** `time.time()` (main.py:35-36) is the `now` parameter.
  The status-500 reply reads the clock twice more with `datetime.utcnow()`,
  once per timestamp field (main.py:188 and main.py:189). Both reads are
  taken to be `now`.
- **Time formatting.** ISO and `strftime` formatting (main.py:38-43,
  179-203) are not modelled. Instants are integer epoch seconds, and the
  GMT+3 instant is that value plus 10800.
- **Concurrency.** Requests racing on the cache under the thread pool are
  not modelled: requests are sequential.
- **Unicode.** Python's Unicode `\d`, `\s`, `\w` and `str.strip()` are
  reduced to their ASCII members, and `re.I` is reduced to ASCII case
  folding.
- **Failure timing.** An exception part-way through the row loop is the
  same as a failed outcome. Partial results are discarded either way, so
  the moment of failure is not modelled.
- **Octet range.** Octets are not range-checked (0-999 passes) because the
  source does not check them either.

=== FILE: patterns.dfy ===
/**
  The regular expressions of the row parser in main.py, each written out as a
  matcher: given the text and a start position, the span its capture group
  takes if the expression matches there, as Python's backtracking engine
  would find it. `Search` then gives the leftmost start that matches, which
  is what `re.search` reports.

  Most digit repetitions in these expressions are followed by a character
  that is not a digit (a dot, a colon, whitespace, a percent sign). The port's
  `\d{1,5}` is followed by nothing, so it takes at most five digits and ends
  the match. The labelled speed figure `[\d\.]+` is followed only by an
  optional unit group, so it too keeps its whole run. Either way a greedy
  repetition succeeds by taking the whole run at its start (capped at five
  for the port), and each matcher is deterministic. The one place where the
  engine gives characters back is the last-checked label, handled by
  `LastNonNewline`.
 */
module Patterns {
  import opened Text

  /** The characters [lo, hi) of the searched text that a group captured. */
  datatype Span = Span(lo: nat, hi: nat)

  /** A successful search: where the match starts, and its group. */
  datatype Match = Match(start: nat, group: Span)

  datatype Pattern =
    | IpPort          // a dotted quad, a colon and a port
    | Word(w: string) // `w` as a whole word, any case
    | CountryCode     // two upper-case letters standing as a word
    | Latency         // digits, one whitespace, "ms" in any case
    | LabelledSpeed   // "speed", separators, a figure and maybe a unit
    | BareSpeed       // a figure followed by a bandwidth unit
    | LabelledUptime  // "uptime", separators, digits, dots and percent signs
    | BareUptime      // digits and a percent sign
    | LastChecked     // "last checked", separators, the rest of the line

  /** Python's `\b` between positions p - 1 and p (text edges count as non-word). */
  predicate Boundary(t: string, p: nat)
    requires p <= |t|
  {
    (p > 0 && IsWord(t[p - 1])) != (p < |t| && IsWord(t[p]))
  }

  /** `w` (spelt in lower case where it has letters) occurs at `i`, in any case. */
  predicate LiteralAt(t: string, i: nat, w: string)
  {
    i + |w| <= |t| && SameIgnoringCase(t[i..i + |w|], w)
  }

  predicate AllIn(s: string, k: CharClass)
  {
    forall j :: 0 <= j < |s| ==> InClass(s[j], k)
  }

  // ---------------------------------------------------------------- address

  /** One to three digits at `i`, then `sep`: the position after `sep`. */
  function OctetThen(t: string, i: nat, sep: char): (e: Option<nat>)
    requires i <= |t|
    requires !IsDigit(sep)
    ensures e.Some? ==> i + 2 <= e.value <= |t| && t[e.value - 1] == sep
    ensures e.Some? ==> IsDecimal(t[i..e.value - 1], 1, 3)
  {
    var n := Run(t, i, Digits);
    RunMembers(t, i, Digits);
    if 1 <= n <= 3 && i + n < |t| && t[i + n] == sep then Some(i + n + 1) else None
  }

  /** `count` runs of one to three digits separated by dots, then `sep`: the
      position after `sep`. */
  function OctetsThen(t: string, i: nat, count: nat, sep: char): (e: Option<nat>)
    requires i <= |t| && count >= 1
    requires !IsDigit(sep)
    ensures e.Some? ==> i + 2 <= e.value <= |t| && t[e.value - 1] == sep
    decreases count
  {
    if count == 1 then OctetThen(t, i, sep)
    else
      match OctetThen(t, i, '.')
      case None => None
      case Some(a) => OctetsThen(t, a, count - 1, sep)
  }

  /** Four dot-separated runs of one to three digits, a colon and one to five
      digits, the port taking as many digits as it can. */
  function IpPortAt(t: string, i: nat): (r: Option<Span>)
    requires i <= |t|
    ensures r.Some? ==> r.value.lo == i < r.value.hi <= |t|
  {
    match OctetsThen(t, i, 4, ':')
    case None => None
    case Some(d) =>
      var n := Run(t, d, Digits);
      if n == 0 then None else Some(Span(i, d + Min(n, 5)))
  }

  /** A dotted quad: four pieces between dots, each one to three digits.
      The octets are not range-checked. */
  predicate IsDottedQuad(s: string)
  {
    var octets := Split(s, '.');
    |octets| == 4 && forall k :: 0 <= k < 4 ==> IsDecimal(octets[k], 1, 3)
  }

  /** An address and a port: exactly one colon, a dotted quad before it and one
      to five digits after it. */
  predicate IsIpPort(s: string)
  {
    var parts := Split(s, ':');
    |parts| == 2 && IsDottedQuad(parts[0]) && IsDecimal(parts[1], 1, 5)
  }

  /** The octets `OctetsThen` passes over, in order. */
  lemma {:induction false} OctetSlices(t: string, i: nat, count: nat, sep: char, e: nat) returns (os: seq<string>)
    requires i <= |t| && count >= 1 && !IsDigit(sep)
    requires OctetsThen(t, i, count, sep) == Some(e)
    ensures |os| == count && forall k :: 0 <= k < count ==> IsDecimal(os[k], 1, 3)
    ensures Join(os, '.') == t[i..e - 1]
    decreases count
  {
    if count == 1 {
      os := OnlyOctet(t, i, sep, e);
    } else {
      var a := FirstOctet(t, i, count, sep, e);
      var rest := OctetSlices(t, a, count - 1, sep, e);
      os := PrependOctet(t, i, a, e, rest);
    }
  }

  /** The one octet `OctetThen` passes over. */
  lemma OnlyOctet(t: string, i: nat, sep: char, e: nat) returns (os: seq<string>)
    requires i <= |t| && !IsDigit(sep) && OctetsThen(t, i, 1, sep) == Some(e)
    ensures |os| == 1 && IsDecimal(os[0], 1, 3) && Join(os, '.') == t[i..e - 1]
  {
    os := [t[i..e - 1]];
  }

  /** The octet before `a` in front of the octets joined between `a` and `e`. */
  lemma PrependOctet(t: string, i: nat, a: nat, e: nat, rest: seq<string>) returns (os: seq<string>)
    requires i + 2 <= a < e <= |t| && t[a - 1] == '.' && IsDecimal(t[i..a - 1], 1, 3)
    requires |rest| >= 1 && forall k :: 0 <= k < |rest| ==> IsDecimal(rest[k], 1, 3)
    requires Join(rest, '.') == t[a..e - 1]
    ensures |os| == |rest| + 1 && forall k :: 0 <= k < |os| ==> IsDecimal(os[k], 1, 3)
    ensures Join(os, '.') == t[i..e - 1]
  {
    SplitAround(t, i, a - 1, e - 1, '.');
    os := [t[i..a - 1]] + rest;
    OctetsCons(os, t[i..a - 1], rest);
  }

  /** Joining an octet and further octets. */
  lemma OctetsCons(os: seq<string>, o: string, rest: seq<string>)
    requires os == [o] + rest && |rest| >= 1 && IsDecimal(o, 1, 3)
    requires forall k :: 0 <= k < |rest| ==> IsDecimal(rest[k], 1, 3)
    ensures |os| == |rest| + 1 && forall k :: 0 <= k < |os| ==> IsDecimal(os[k], 1, 3)
    ensures Join(os, '.') == o + ['.'] + Join(rest, '.')
  {
    assert os[1..] == rest;
  }

  /** Where the first octet and its dot end, when `OctetsThen` matches
      several octets. */
  lemma FirstOctet(t: string, i: nat, count: nat, sep: char, e: nat) returns (a: nat)
    requires i <= |t| && count >= 2 && !IsDigit(sep)
    requires OctetsThen(t, i, count, sep) == Some(e)
    ensures i + 2 <= a < e <= |t| && t[a - 1] == '.' && IsDecimal(t[i..a - 1], 1, 3)
    ensures OctetsThen(t, a, count - 1, sep) == Some(e)
  {
    a := OctetThen(t, i, '.').value;
  }

  /** `t[lo..hi]` around the character `c` at `m`. */
  lemma SplitAround(t: string, lo: nat, m: nat, hi: nat, c: char)
    requires lo <= m < hi <= |t| && t[m] == c
    ensures t[lo..hi] == t[lo..m] + [c] + t[m + 1..hi]
  {
  }

  /** Splitting a separator-free piece, the separator and the rest. */
  lemma SplitAfter(x: string, y: string, sep: char)
    requires sep !in x
    ensures Split(x + [sep] + y, sep) == [x] + Split(y, sep)
  {
    SplitPrefix(x, [sep] + y, sep);
    assert x + [sep] + y == x + ([sep] + y);
    assert ([sep] + y)[1..] == y;
    assert x + [] == x;
  }

  /** What `IpPortAt` captures is an address and a port. */
  lemma IpPortAtSound(t: string, i: nat)
    requires i <= |t| && IpPortAt(t, i).Some?
    ensures IsIpPort(t[i..IpPortAt(t, i).value.hi])
  {
    var d, h := IpPortEnds(t, i);
    var os := OctetSlices(t, i, 4, ':', d);
    CapturedAddress(t, i, d, h, os);
  }

  /** Where the address ends (after its colon) and where the port ends, when
      `IpPortAt` matches. */
  lemma IpPortEnds(t: string, i: nat) returns (d: nat, h: nat)
    requires i <= |t| && IpPortAt(t, i).Some?
    ensures OctetsThen(t, i, 4, ':') == Some(d) && h == IpPortAt(t, i).value.hi
    ensures i < d < h <= |t| && h <= d + 5 && t[d - 1] == ':'
    ensures IsDecimal(t[d..h], h - d, h - d)
  {
    d := OctetsThen(t, i, 4, ':').value;
    h := IpPortAt(t, i).value.hi;
    RunMembers(t, d, Digits);
    DigitsSlice(t, d, h);
  }

  lemma CapturedAddress(t: string, i: nat, d: nat, h: nat, os: seq<string>)
    requires i < d <= h <= |t| && t[d - 1] == ':'
    requires |os| == 4 && forall k :: 0 <= k < 4 ==> IsDecimal(os[k], 1, 3)
    requires Join(os, '.') == t[i..d - 1]
    requires IsDecimal(t[d..h], h - d, h - d) && 1 <= h - d <= 5
    ensures IsIpPort(t[i..h])
  {
    SplitAround(t, i, d - 1, h, ':');
    AddressAndPort(t[i..h], t[i..d - 1], os, t[d..h]);
  }

  lemma DigitsSlice(t: string, d: nat, h: nat)
    requires d <= h <= |t| && forall k :: d <= k < h ==> IsDigit(t[k])
    ensures IsDecimal(t[d..h], h - d, h - d)
  {
  }

  /** Four octets joined by dots, a colon and one to five digits form an
      address and a port. */
  lemma AddressAndPort(s: string, ip: string, os: seq<string>, port: string)
    requires |os| == 4 && forall k :: 0 <= k < 4 ==> IsDecimal(os[k], 1, 3)
    requires IsDecimal(port, |port|, |port|) && 1 <= |port| <= 5
    requires ip == Join(os, '.') && s == ip + [':'] + port
    ensures IsIpPort(s)
  {
    forall k | 0 <= k < 4 ensures '.' !in os[k] && ':' !in os[k] {
      assert forall j :: 0 <= j < |os[k]| ==> IsDigit(os[k][j]);
    }
    SplitJoin(os, '.');
    JoinAvoids(os, '.', ':');
    SplitAfter(ip, port, ':');
    assert ':' !in port by {
      assert forall k :: 0 <= k < |port| ==> IsDigit(port[k]);
    }
    SplitPrefix(port, [], ':');
    assert port + [] == port;
  }

  /** The pieces `os` joined by dots, then `last` and `rest`. */
  function Chain(os: seq<string>, last: char, rest: string): (c: string)
    requires |os| >= 1
    ensures |c| > |rest|
  {
    if |os| == 1 then os[0] + [last] + rest else os[0] + ['.'] + Chain(os[1..], last, rest)
  }

  lemma {:induction false} ChainEnds(os: seq<string>, last: char, rest: string)
    requires |os| >= 1
    ensures Chain(os, last, rest)[|Chain(os, last, rest)| - |rest|..] == rest
  {
    if |os| > 1 {
      ChainEnds(os[1..], last, rest);
    }
  }

  lemma {:induction false} JoinChain(os: seq<string>, last: char, rest: string)
    requires |os| >= 1
    ensures Join(os, '.') + [last] + rest == Chain(os, last, rest)
  {
    if |os| > 1 {
      JoinChain(os[1..], last, rest);
      assert Join(os, '.') == os[0] + ['.'] + Join(os[1..], '.');
    }
  }

  /** One to three digits and `sep` at the front of `t[i..e]` are what
      `OctetThen` passes over. */
  lemma OctetStep(t: string, i: nat, e: nat, o: string, sep: char, rest: string)
    requires i <= e <= |t|
    requires t[i..e] == o + [sep] + rest
    requires IsDecimal(o, 1, 3) && !IsDigit(sep)
    ensures OctetThen(t, i, sep) == Some(i + |o| + 1)
    ensures t[i + |o| + 1..e] == rest
  {
    assert forall k :: i <= k < i + |o| ==> t[k] == o[k - i];
    assert t[i + |o|] == sep;
    RunIs(t, i, |o|, Digits);
  }

  /** Octets chained by dots and `last` at the front of `t[i..e]` are what
      `OctetsThen` passes over. */
  lemma {:induction false} OctetsThenComplete(t: string, i: nat, e: nat, os: seq<string>, last: char, rest: string)
    requires i <= e <= |t| && |os| >= 1 && !IsDigit(last)
    requires t[i..e] == Chain(os, last, rest)
    requires forall k :: 0 <= k < |os| ==> IsDecimal(os[k], 1, 3)
    ensures i + |rest| < e
    ensures OctetsThen(t, i, |os|, last) == Some(e - |rest|)
    decreases |os|
  {
    if |os| == 1 {
      ChainLast(t, i, e, os, last, rest);
    } else {
      var a := ChainStep(t, i, e, os, last, rest);
      OctetsThenComplete(t, a, e, os[1..], last, rest);
      ChainCons(t, i, a, os, last, e - |rest|);
    }
  }

  /** The first octet and dot of a chain of several; the rest is a chain. */
  lemma ChainStep(t: string, i: nat, e: nat, os: seq<string>, last: char, rest: string) returns (a: nat)
    requires i <= e <= |t| && |os| >= 2
    requires t[i..e] == Chain(os, last, rest)
    requires forall k :: 0 <= k < |os| ==> IsDecimal(os[k], 1, 3)
    ensures OctetThen(t, i, '.') == Some(a) && i < a <= e
    ensures t[a..e] == Chain(os[1..], last, rest) && |os[1..]| >= 1
    ensures forall k :: 0 <= k < |os[1..]| ==> IsDecimal(os[1..][k], 1, 3)
  {
    ChainHead(t, i, e, os, last, rest);
    a := i + |os[0]| + 1;
    DecimalTail(os);
  }

  /** One octet and a dot in front of what `OctetsThen` matches for the
      rest of the chain. */
  lemma ChainCons(t: string, i: nat, a: nat, os: seq<string>, last: char, f: nat)
    requires i <= |t| && |os| >= 2 && !IsDigit(last)
    requires OctetThen(t, i, '.') == Some(a) && OctetsThen(t, a, |os[1..]|, last) == Some(f)
    ensures OctetsThen(t, i, |os|, last) == Some(f)
  {
    OctetsThenCons(t, i, a, |os|, last, f);
  }

  lemma DecimalTail(os: seq<string>)
    requires |os| >= 1 && forall k :: 0 <= k < |os| ==> IsDecimal(os[k], 1, 3)
    ensures |os[1..]| == |os| - 1 && forall k :: 0 <= k < |os[1..]| ==> IsDecimal(os[1..][k], 1, 3)
  {
  }

  /** The only octet of a chain, then `last`. */
  lemma ChainLast(t: string, i: nat, e: nat, os: seq<string>, last: char, rest: string)
    requires i <= e <= |t| && |os| == 1 && !IsDigit(last)
    requires t[i..e] == Chain(os, last, rest) && IsDecimal(os[0], 1, 3)
    ensures i + |rest| < e
    ensures OctetsThen(t, i, 1, last) == Some(e - |rest|)
  {
    ChainOfOne(t[i..e], os, last, rest);
    LastOctet(t, i, e, os[0], last, rest);
  }

  lemma ChainOfOne(s: string, os: seq<string>, last: char, rest: string)
    requires |os| == 1 && s == Chain(os, last, rest)
    ensures s == os[0] + [last] + rest
  {
  }

  lemma LastOctet(t: string, i: nat, e: nat, o: string, last: char, rest: string)
    requires i <= e <= |t| && !IsDigit(last)
    requires t[i..e] == o + [last] + rest && IsDecimal(o, 1, 3)
    ensures i + |rest| < e
    ensures OctetsThen(t, i, 1, last) == Some(e - |rest|)
  {
    OctetStep(t, i, e, o, last, rest);
  }

  /** The first octet of a chain of several, then a dot. */
  lemma ChainHead(t: string, i: nat, e: nat, os: seq<string>, last: char, rest: string)
    requires i <= e <= |t| && |os| >= 2
    requires t[i..e] == Chain(os, last, rest) && IsDecimal(os[0], 1, 3)
    ensures OctetThen(t, i, '.') == Some(i + |os[0]| + 1)
    ensures i + |os[0]| + 1 <= e && t[i + |os[0]| + 1..e] == Chain(os[1..], last, rest)
  {
    ChainOfMore(t[i..e], os, last, rest);
    OctetStep(t, i, e, os[0], '.', Chain(os[1..], last, rest));
  }

  lemma ChainOfMore(s: string, os: seq<string>, last: char, rest: string)
    requires |os| >= 2 && s == Chain(os, last, rest)
    ensures s == os[0] + ['.'] + Chain(os[1..], last, rest)
  {
  }

  /** An octet and a dot, then `count - 1` octets and `last`, are `count`
      octets and `last`. */
  lemma OctetsThenCons(t: string, i: nat, a: nat, count: nat, last: char, f: nat)
    requires i <= |t| && count >= 2 && !IsDigit(last)
    requires OctetThen(t, i, '.') == Some(a) && OctetsThen(t, a, count - 1, last) == Some(f)
    ensures OctetsThen(t, i, count, last) == Some(f)
  {
  }

  /** A port of one to five digits at `d` is covered by the greedy port. */
  lemma PortCovered(t: string, d: nat, e: nat, port: string)
    requires d <= e <= |t| && t[d..e] == port && IsDecimal(port, 1, 5)
    ensures 1 <= Run(t, d, Digits) && e <= d + Min(Run(t, d, Digits), 5)
  {
    assert forall k :: d <= k < e ==> t[k] == port[k - d];
    RunCovers(t, d, |port|, Digits);
  }

  /** Every address and port that starts at `i` is found there, and the
      port `IpPortAt` takes is at least as long as this one. */
  lemma IpPortAtComplete(t: string, i: nat, e: nat)
    requires i <= e <= |t| && IsIpPort(t[i..e])
    ensures IpPortAt(t, i).Some? && e <= IpPortAt(t, i).value.hi
  {
    var os, port := IpPortPieces(t[i..e]);
    AddressThenPort(t, i, e, os, port);
  }

  /** Four octets chained by dots, a colon and a port at `i` are found by
      `IpPortAt`. */
  lemma AddressThenPort(t: string, i: nat, e: nat, os: seq<string>, port: string)
    requires i <= e <= |t| && |os| == 4 && forall k :: 0 <= k < 4 ==> IsDecimal(os[k], 1, 3)
    requires IsDecimal(port, 1, 5) && t[i..e] == Chain(os, ':', port)
    ensures IpPortAt(t, i).Some? && e <= IpPortAt(t, i).value.hi
  {
    var d := ChainEnd(t, i, e, os, ':', port);
    PortCovered(t, d, e, port);
    IpPortAtOf(t, i, d, e);
  }

  /** Where the octets of a chain end: after its `last` character, where
      `rest` begins. */
  lemma ChainEnd(t: string, i: nat, e: nat, os: seq<string>, last: char, rest: string) returns (d: nat)
    requires i <= e <= |t| && |os| >= 1 && !IsDigit(last)
    requires forall k :: 0 <= k < |os| ==> IsDecimal(os[k], 1, 3)
    requires t[i..e] == Chain(os, last, rest)
    ensures i < d <= e && d == e - |rest| && OctetsThen(t, i, |os|, last) == Some(d) && t[d..e] == rest
  {
    ChainEnds(os, last, rest);
    OctetsThenComplete(t, i, e, os, last, rest);
    SuffixOfSlice(t, i, e, rest);
    d := e - |rest|;
  }

  /** The octets and the port of an address and a port. */
  lemma IpPortPieces(s: string) returns (os: seq<string>, port: string)
    requires IsIpPort(s)
    ensures |os| == 4 && forall k :: 0 <= k < 4 ==> IsDecimal(os[k], 1, 3)
    ensures IsDecimal(port, 1, 5)
    ensures s == Chain(os, ':', port)
  {
    var parts := Split(s, ':');
    os, port := Split(parts[0], '.'), parts[1];
    IpPortChain(s);
  }

  /** `IpPortAt` from the end of the address and a long enough digit run. */
  lemma IpPortAtOf(t: string, i: nat, d: nat, e: nat)
    requires i <= |t| && OctetsThen(t, i, 4, ':') == Some(d)
    requires 1 <= Run(t, d, Digits) && e <= d + Min(Run(t, d, Digits), 5)
    ensures IpPortAt(t, i).Some? && e <= IpPortAt(t, i).value.hi
  {
  }

  /** An address and a port are its octets chained by dots, then a colon and
      the port. */
  lemma IpPortChain(s: string)
    requires IsIpPort(s)
    ensures s == Chain(Split(Split(s, ':')[0], '.'), ':', Split(s, ':')[1])
  {
    var parts := Split(s, ':');
    JoinSplit(s, ':');
    assert parts[1..] == [parts[1]];
    JoinSplit(parts[0], '.');
    JoinChain(Split(parts[0], '.'), ':', parts[1]);
  }

  lemma SuffixOfSlice(t: string, i: nat, e: nat, rest: string)
    requires i <= e <= |t| && |rest| <= e - i && t[i..e][e - i - |rest|..] == rest
    ensures t[e - |rest|..e] == rest
  {
    assert t[i..e][e - i - |rest|..] == t[e - |rest|..e];
  }

  // ---------------------------------------------------------------- words

  /** `w` at `i` in any case, with a word boundary on each side. */
  function WordAt(t: string, i: nat, w: string): (r: Option<Span>)
    requires i <= |t|
    ensures r.Some? ==> r.value == Span(i, i + |w|) && i + |w| <= |t|
  {
    if LiteralAt(t, i, w) && Boundary(t, i) && Boundary(t, i + |w|) then Some(Span(i, i + |w|)) else None
  }

  /** Two upper-case ASCII letters with a word boundary on each side. */
  function CountryAt(t: string, i: nat): (r: Option<Span>)
    requires i <= |t|
    ensures r.Some? <==>
              i + 2 <= |t| && IsUpper(t[i]) && IsUpper(t[i + 1])
              && (i == 0 || !IsWord(t[i - 1])) && (i + 2 == |t| || !IsWord(t[i + 2]))
    ensures r.Some? ==> r.value == Span(i, i + 2)
  {
    if i + 2 <= |t| && Boundary(t, i) && IsUpper(t[i]) && IsUpper(t[i + 1]) && Boundary(t, i + 2)
    then Some(Span(i, i + 2)) else None
  }

  // ---------------------------------------------------------------- latency

  /** One to four digits, one whitespace character and "ms" in any case. */
  predicate IsLatency(s: string)
  {
    4 <= |s| <= 7 && IsDecimal(s[..|s| - 3], 1, 4) && IsSpace(s[|s| - 3]) && SameIgnoringCase(s[|s| - 2..], "ms")
  }

  function LatencyAt(t: string, i: nat): (r: Option<Span>)
    requires i <= |t|
    ensures r.Some? ==> r.value.lo == i <= r.value.hi <= |t| && IsLatency(t[i..r.value.hi])
  {
    var n := Run(t, i, Digits);
    RunMembers(t, i, Digits);
    if 1 <= n <= 4 && i + n + 3 <= |t| && IsSpace(t[i + n]) && LiteralAt(t, i + n + 1, "ms")
    then
      assert t[i..i + n + 3][n + 1..] == t[i + n + 1..i + n + 3];
      Some(Span(i, i + n + 3))
    else None
  }

  /** Every latency text starting at `i` is the one `LatencyAt` finds there. */
  lemma LatencyAtComplete(t: string, i: nat, e: nat)
    requires i <= e <= |t| && IsLatency(t[i..e])
    ensures LatencyAt(t, i) == Some(Span(i, e))
  {
    var s := t[i..e];
    var digits := |s| - 3;
    assert forall k :: i <= k < i + digits ==> t[k] == s[..digits][k - i];
    assert t[i + digits] == s[digits];
    RunIs(t, i, digits, Digits);
    assert t[i + digits + 1..i + digits + 3] == s[|s| - 2..];
  }

  // ---------------------------------------------------------------- speed

  /** "KB/s" or "MB/s", in any case. */
  predicate IsKbOrMb(u: string)
  {
    |u| == 4 && (Lower(u[0]) == 'k' || Lower(u[0]) == 'm') && SameIgnoringCase(u[1..], "b/s")
  }

  /** What may follow a labelled figure: nothing, "KB/s" or "MB/s" in any
      case, or one whitespace character and "KB/s" in any case. A whitespace
      character before "MB/s" is not part of it. */
  predicate IsLabelUnit(u: string)
  {
    u == [] || IsKbOrMb(u) || (|u| == 5 && IsSpace(u[0]) && SameIgnoringCase(u[1..], "kb/s"))
  }

  /** How many characters the optional unit after a labelled figure takes at `p`. */
  function LabelUnit(t: string, p: nat): (n: nat)
    requires p <= |t|
    ensures p + n <= |t| && IsLabelUnit(t[p..p + n])
  {
    if p + 4 <= |t| && IsKbOrMb(t[p..p + 4]) then 4
    else if p + 5 <= |t| && IsSpace(t[p]) && SameIgnoringCase(t[p + 1..p + 5], "kb/s") then
      assert t[p..p + 5][1..] == t[p + 1..p + 5];
      5
    else 0
  }

  /** A figure of digits and dots, then what may follow a labelled figure. */
  predicate IsLabelledFigure(s: string)
  {
    exists f :: 1 <= f <= |s| && AllIn(s[..f], DigitsAndDots) && IsLabelUnit(s[f..])
  }

  /** "speed" in any case, any run of colons and whitespace, then the longest
      figure of digits and dots and the unit that may follow it. */
  function LabelledSpeedAt(t: string, i: nat): (r: Option<Span>)
    requires i <= |t|
    ensures r.Some? ==> i + 5 <= r.value.lo < r.value.hi <= |t|
  {
    if LiteralAt(t, i, "speed") then FigureAfter(t, i + 5) else None
  }

  /** What follows a speed label ending at `p`: any run of colons and
      whitespace, then the longest figure of digits and dots and the unit
      that may follow it. */
  function FigureAfter(t: string, p: nat): (r: Option<Span>)
    requires p <= |t|
    ensures r.Some? ==> p <= r.value.lo < r.value.hi <= |t|
  {
    var j := p + Run(t, p, ColonOrSpace);
    var n := Run(t, j, DigitsAndDots);
    if n == 0 then None else Some(Span(j, j + n + LabelUnit(t, j + n)))
  }

  /** What `LabelledSpeedAt` captures follows the label and its separators,
      and is a figure with the unit that may follow it. */
  lemma LabelledSpeedAtSound(t: string, i: nat)
    requires i <= |t| && LabelledSpeedAt(t, i).Some?
    ensures LiteralAt(t, i, "speed")
    ensures AllIn(t[i + 5..LabelledSpeedAt(t, i).value.lo], ColonOrSpace)
    ensures IsLabelledFigure(t[LabelledSpeedAt(t, i).value.lo..LabelledSpeedAt(t, i).value.hi])
  {
    FigureAfterSound(t, i + 5);
  }

  lemma FigureAfterSound(t: string, p: nat)
    requires p <= |t| && FigureAfter(t, p).Some?
    ensures AllIn(t[p..FigureAfter(t, p).value.lo], ColonOrSpace)
    ensures IsLabelledFigure(t[FigureAfter(t, p).value.lo..FigureAfter(t, p).value.hi])
  {
    var j := p + Run(t, p, ColonOrSpace);
    var n := Run(t, j, DigitsAndDots);
    var u := LabelUnit(t, j + n);
    assert FigureAfter(t, p) == Some(Span(j, j + n + u));
    FigureParts(t, p, j, n, u);
  }

  lemma FigureParts(t: string, p: nat, j: nat, n: nat, u: nat)
    requires p <= j <= |t| && j == p + Run(t, p, ColonOrSpace)
    requires n == Run(t, j, DigitsAndDots) && n > 0 && j + n <= |t| && u == LabelUnit(t, j + n)
    ensures j + n + u <= |t| && AllIn(t[p..j], ColonOrSpace) && IsLabelledFigure(t[j..j + n + u])
  {
    RunMembers(t, p, ColonOrSpace);
    RunMembers(t, j, DigitsAndDots);
    LabelledFigureOf(t, j, n, u);
  }

  lemma LabelledFigureOf(t: string, j: nat, n: nat, u: nat)
    requires 1 <= n && j + n + u <= |t|
    requires forall k :: j <= k < j + n ==> InClass(t[k], DigitsAndDots)
    requires IsLabelUnit(t[j + n..j + n + u])
    ensures IsLabelledFigure(t[j..j + n + u])
  {
    var s := t[j..j + n + u];
    assert s[n..] == t[j + n..j + n + u];
    assert AllIn(s[..n], DigitsAndDots);
  }

  /** The `m` characters at `p` are a unit that may follow a labelled figure. */
  predicate LabelUnitOfLength(t: string, p: nat, m: nat)
    requires p + m <= |t|
  {
    IsLabelUnit(t[p..p + m])
  }

  /** The optional unit after a labelled figure is taken whenever it is
      there: no longer unit starts at `p` than the one `LabelUnit` takes. */
  lemma LabelUnitLongest(t: string, p: nat)
    requires p <= |t|
    ensures forall m :: LabelUnit(t, p) < m <= |t| - p ==> !LabelUnitOfLength(t, p, m)
  {
    forall m | LabelUnit(t, p) < m <= |t| - p
      ensures !LabelUnitOfLength(t, p, m)
    {
      var u := t[p..p + m];
      if m == 5 {
        assert u[0] == t[p];
        assert u[1..] == t[p + 1..p + 5];
        if LabelUnit(t, p) == 4 {
          assert Lower(t[p..p + 4][0]) == Lower(t[p]);
          assert !IsSpace(t[p]);
        }
      }
    }
  }

  /** Where the longest figure of digits and dots that starts at `j` ends. */
  function FigureEnd(t: string, j: nat): (f: nat)
    requires j <= |t|
    ensures j <= f <= |t| && AllIn(t[j..f], DigitsAndDots)
    ensures f == |t| || !InClass(t[f], DigitsAndDots)
  {
    RunMembers(t, j, DigitsAndDots);
    j + Run(t, j, DigitsAndDots)
  }

  /** The capture of a labelled speed is greedy: it runs to the end of the
      longest figure of digits and dots at its start, and then takes the
      unit that `LabelUnitLongest` shows is the longest there. */
  lemma LabelledSpeedAtLongest(t: string, i: nat)
    requires i <= |t| && LabelledSpeedAt(t, i).Some?
    ensures LabelledSpeedAt(t, i).value.lo < FigureEnd(t, LabelledSpeedAt(t, i).value.lo)
    ensures LabelledSpeedAt(t, i).value.hi
              == FigureEnd(t, LabelledSpeedAt(t, i).value.lo) + LabelUnit(t, FigureEnd(t, LabelledSpeedAt(t, i).value.lo))
  {
    FigureAfterLongest(t, i + 5);
  }

  lemma FigureAfterLongest(t: string, p: nat)
    requires p <= |t| && FigureAfter(t, p).Some?
    ensures FigureAfter(t, p).value.lo < FigureEnd(t, FigureAfter(t, p).value.lo)
    ensures FigureAfter(t, p).value.hi
              == FigureEnd(t, FigureAfter(t, p).value.lo) + LabelUnit(t, FigureEnd(t, FigureAfter(t, p).value.lo))
  {
    var j := p + Run(t, p, ColonOrSpace);
    assert FigureAfter(t, p).value.lo == j;
    assert FigureEnd(t, j) == j + Run(t, j, DigitsAndDots);
  }

  /** Every speed label followed by separators and a digit or a dot is
      matched, and the capture starts at that digit or dot. */
  lemma LabelledSpeedAtComplete(t: string, i: nat, j: nat)
    requires i + 5 <= j < |t| && LiteralAt(t, i, "speed")
    requires AllIn(t[i + 5..j], ColonOrSpace) && InClass(t[j], DigitsAndDots)
    ensures LabelledSpeedAt(t, i).Some? && LabelledSpeedAt(t, i).value.lo == j
  {
    SeparatorsEndAt(t, i + 5, j);
  }

  /** Separators from `p` up to a character that is not one are the whole
      greedy run. */
  lemma SeparatorsEndAt(t: string, p: nat, j: nat)
    requires p <= j < |t| && AllIn(t[p..j], ColonOrSpace) && !InClass(t[j], ColonOrSpace)
    ensures Run(t, p, ColonOrSpace) == j - p
  {
    forall k | p <= k < j
      ensures InClass(t[k], ColonOrSpace)
    {
      assert t[p..j][k - p] == t[k];
    }
    RunIs(t, p, j - p, ColonOrSpace);
  }

  /** A bandwidth unit: "KB/s" or "MB/s", or "Mbit/s", in any case. */
  predicate IsBandwidthUnit(u: string)
  {
    IsKbOrMb(u) || SameIgnoringCase(u, "mbit/s")
  }

  /** How many characters a bandwidth unit takes at `p` (0 when there is none). */
  function BandwidthUnit(t: string, p: nat): (n: nat)
    requires p <= |t|
    ensures p + n <= |t|
    ensures n > 0 ==> IsBandwidthUnit(t[p..p + n])
  {
    if p + 4 <= |t| && IsKbOrMb(t[p..p + 4]) then 4
    else if p + 6 <= |t| && SameIgnoringCase(t[p..p + 6], "mbit/s") then 6
    else 0
  }

  /** A figure of digits and dots, at most one whitespace character, and a
      bandwidth unit. */
  predicate IsBareFigure(s: string)
  {
    exists f, g :: 1 <= f <= g <= f + 1 && g <= |s| && AllIn(s[..f], DigitsAndDots)
                   && AllIn(s[f..g], Space) && IsBandwidthUnit(s[g..])
  }

  /** The longest figure of digits and dots at `i`, an optional whitespace
      character and a bandwidth unit. */
  function BareSpeedAt(t: string, i: nat): (r: Option<Span>)
    requires i <= |t|
    ensures r.Some? ==> r.value.lo == i < r.value.hi <= |t|
  {
    var n := Run(t, i, DigitsAndDots);
    if n == 0 then None
    else
      var g := if i + n < |t| && IsSpace(t[i + n]) then n + 1 else n;
      var u := BandwidthUnit(t, i + g);
      if u == 0 then None else Some(Span(i, i + g + u))
  }

  /** What `BareSpeedAt` captures is a figure, at most one whitespace
      character and a bandwidth unit. */
  lemma BareSpeedAtSound(t: string, i: nat)
    requires i <= |t| && BareSpeedAt(t, i).Some?
    ensures IsBareFigure(t[i..BareSpeedAt(t, i).value.hi])
  {
    var n := Run(t, i, DigitsAndDots);
    RunMembers(t, i, DigitsAndDots);
    var g := if i + n < |t| && IsSpace(t[i + n]) then n + 1 else n;
    var u := BandwidthUnit(t, i + g);
    assert BareSpeedAt(t, i) == Some(Span(i, i + g + u));
    BareFigureOf(t, i, n, g, u);
  }

  lemma BareFigureOf(t: string, i: nat, n: nat, g: nat, u: nat)
    requires 1 <= n <= g <= n + 1 && i + g + u <= |t|
    requires forall k :: i <= k < i + n ==> InClass(t[k], DigitsAndDots)
    requires g == n + 1 ==> IsSpace(t[i + n])
    requires IsBandwidthUnit(t[i + g..i + g + u])
    ensures IsBareFigure(t[i..i + g + u])
  {
    var s := t[i..i + g + u];
    assert s[g..] == t[i + g..i + g + u];
    assert AllIn(s[..n], DigitsAndDots);
    assert AllIn(s[n..g], Space);
  }

  /** Every figure with its bandwidth unit that starts at `i` is the match
      found there. */
  lemma BareSpeedAtComplete(t: string, i: nat, e: nat)
    requires i <= e <= |t| && IsBareFigure(t[i..e])
    ensures BareSpeedAt(t, i) == Some(Span(i, e))
  {
    var f, g := BareFigureWitness(t, i, e);
    BareFigureParts(t, i, e, f, g);
    BareSpeedAtIs(t, i, f, g, e - (i + g));
  }

  /** `BareSpeedAt` once the figure, the whitespace and the unit are known. */
  lemma BareSpeedAtIs(t: string, i: nat, f: nat, g: nat, u: nat)
    requires i + f < |t| && Run(t, i, DigitsAndDots) == f >= 1
    requires g == if IsSpace(t[i + f]) then f + 1 else f
    requires i + g <= |t| && u == BandwidthUnit(t, i + g) > 0
    ensures BareSpeedAt(t, i) == Some(Span(i, i + g + u))
  {
  }

  /** The figure and the optional whitespace of a bare figure are what
      `BareSpeedAt` passes over. */
  lemma BareFigureParts(t: string, i: nat, e: nat, f: nat, g: nat)
    requires i <= e <= |t| && 1 <= f <= g <= f + 1 && i + g <= e
    requires forall k :: i <= k < i + f ==> InClass(t[k], DigitsAndDots)
    requires g == f + 1 ==> IsSpace(t[i + f])
    requires IsBandwidthUnit(t[i + g..e])
    ensures Run(t, i, DigitsAndDots) == f
    ensures i + f < |t| && g == if IsSpace(t[i + f]) then f + 1 else f
    ensures BandwidthUnit(t, i + g) == e - (i + g) > 0
  {
    UnitIsWhole(t, i + g, e);
    if g == f {
      assert !IsSpace(t[i + f]);
    }
    RunIs(t, i, f, DigitsAndDots);
  }

  /** The split of a bare figure into its figure, its whitespace and its
      unit, as positions of `t`. */
  lemma BareFigureWitness(t: string, i: nat, e: nat) returns (f: nat, g: nat)
    requires i <= e <= |t| && IsBareFigure(t[i..e])
    ensures 1 <= f <= g <= f + 1 && i + g <= e
    ensures forall k :: i <= k < i + f ==> InClass(t[k], DigitsAndDots)
    ensures g == f + 1 ==> IsSpace(t[i + f])
    ensures IsBandwidthUnit(t[i + g..e])
  {
    var s := t[i..e];
    f, g :| 1 <= f <= g <= f + 1 && g <= |s| && AllIn(s[..f], DigitsAndDots)
            && AllIn(s[f..g], Space) && IsBandwidthUnit(s[g..]);
    assert s[g..] == t[i + g..e];
    forall k | i <= k < i + f
      ensures InClass(t[k], DigitsAndDots)
    {
      assert s[..f][k - i] == t[k];
    }
    if g == f + 1 {
      assert s[f..g][0] == t[i + f];
    }
  }

  /** The first character of a bandwidth unit is neither whitespace nor part
      of a figure. */
  lemma UnitStart(c: char)
    requires Lower(c) == 'k' || Lower(c) == 'm'
    ensures !IsSpace(c) && !InClass(c, DigitsAndDots)
  {
  }

  /** A bandwidth unit that ends the stretch is the unit `BandwidthUnit` takes. */
  lemma UnitIsWhole(t: string, p: nat, e: nat)
    requires p <= e <= |t| && IsBandwidthUnit(t[p..e])
    ensures BandwidthUnit(t, p) == e - p > 0
    ensures !IsSpace(t[p]) && !InClass(t[p], DigitsAndDots)
  {
    var u := t[p..e];
    assert u[0] == t[p];
    UnitStart(t[p]);
    if |u| == 6 {
      assert Lower(u[2]) == Lower("mbit/s"[2]);
      assert u[2] == t[p + 2];
    } else {
      assert u == t[p..p + 4];
    }
  }

  // ---------------------------------------------------------------- uptime

  /** "uptime" in any case, any run of colons and whitespace, then the longest
      run of digits, dots and percent signs (at least one). */
  function LabelledUptimeAt(t: string, i: nat): (r: Option<Span>)
    requires i <= |t|
    ensures r.Some? ==> LiteralAt(t, i, "uptime") && i + 6 <= r.value.lo < r.value.hi <= |t|
    ensures r.Some? ==> AllIn(t[i + 6..r.value.lo], ColonOrSpace)
    ensures r.Some? ==> AllIn(t[r.value.lo..r.value.hi], DigitsDotsPercent)
    ensures r.Some? ==> r.value.hi == |t| || !InClass(t[r.value.hi], DigitsDotsPercent)
  {
    if LiteralAt(t, i, "uptime") then
      var j := i + 6 + Run(t, i + 6, ColonOrSpace);
      var n := Run(t, j, DigitsDotsPercent);
      RunMembers(t, i + 6, ColonOrSpace);
      RunMembers(t, j, DigitsDotsPercent);
      if n == 0 then None else Some(Span(j, j + n))
    else None
  }

  /** Every uptime label followed by separators and a digit, a dot or a
      percent sign is matched, and the capture starts there. */
  lemma LabelledUptimeAtComplete(t: string, i: nat, j: nat)
    requires i + 6 <= j < |t| && LiteralAt(t, i, "uptime")
    requires AllIn(t[i + 6..j], ColonOrSpace) && InClass(t[j], DigitsDotsPercent)
    ensures LabelledUptimeAt(t, i).Some? && LabelledUptimeAt(t, i).value.lo == j
  {
    SeparatorsEndAt(t, i + 6, j);
  }

  /** One to three digits and a percent sign. */
  predicate IsPercentage(s: string)
  {
    2 <= |s| <= 4 && IsDecimal(s[..|s| - 1], 1, 3) && s[|s| - 1] == '%'
  }

  function BareUptimeAt(t: string, i: nat): (r: Option<Span>)
    requires i <= |t|
    ensures r.Some? ==> r.value.lo == i <= r.value.hi <= |t| && IsPercentage(t[i..r.value.hi])
  {
    var n := Run(t, i, Digits);
    RunMembers(t, i, Digits);
    if 1 <= n <= 3 && i + n < |t| && t[i + n] == '%' then
      DigitsSlice(t, i, i + n);
      assert t[i..i + n + 1][..n] == t[i..i + n];
      Some(Span(i, i + n + 1))
    else None
  }

  /** Every percentage starting at `i` is the one `BareUptimeAt` finds there. */
  lemma BareUptimeAtComplete(t: string, i: nat, e: nat)
    requires i <= e <= |t| && IsPercentage(t[i..e])
    ensures BareUptimeAt(t, i) == Some(Span(i, e))
  {
    var s := t[i..e];
    var digits := |s| - 1;
    assert forall k :: i <= k < i + digits ==> t[k] == s[..digits][k - i];
    assert t[i + digits] == '%';
    RunIs(t, i, digits, Digits);
  }

  // ---------------------------------------------------------------- last checked

  /** The backtracking of a greedy run of colons and whitespace t[p..q] that
      must leave at least one character that is not a line break: the last
      position in [p, q] holding such a character, if any. */
  function LastNonNewline(t: string, p: nat, q: nat): (r: Option<nat>)
    requires p <= q <= |t|
    ensures r.Some? ==> p <= r.value <= q && r.value < |t| && !IsNewline(t[r.value])
    ensures r.Some? ==> forall k :: r.value < k <= q && k < |t| ==> IsNewline(t[k])
    ensures r.None? ==> forall k :: p <= k <= q && k < |t| ==> IsNewline(t[k])
    decreases q
  {
    if q < |t| && !IsNewline(t[q]) then Some(q)
    else if q == p then None
    else LastNonNewline(t, p, q - 1)
  }

  /** "last checked" in any case, any run of colons and whitespace, then the
      rest of the line (at least one character); `LastCheckedAtSound` states
      what the captured characters are. */
  function LastCheckedAt(t: string, i: nat): (r: Option<Span>)
    requires i <= |t|
    ensures r.Some? ==> i + 12 <= r.value.lo < r.value.hi <= |t|
  {
    if LiteralAt(t, i, "last checked") then RestOfLine(t, i + 12) else None
  }

  /** After the separators from `p`, the rest of a line. The separator run
      takes line breaks too, so when a character follows the run the capture
      is the rest of the line where the run stops, which may be a later line
      than the label's. Only when the run reaches the end of the text does it
      give characters back, down to its last one that is not a line break. */
  function RestOfLine(t: string, p: nat): (r: Option<Span>)
    requires p <= |t|
    ensures r.Some? ==> p <= r.value.lo < r.value.hi <= |t|
  {
    match LastNonNewline(t, p, p + Run(t, p, ColonOrSpace))
    case None => None
    case Some(q) => Some(Span(q, q + Run(t, q, NotNewline)))
  }

  lemma LastCheckedAtSound(t: string, i: nat)
    requires i <= |t| && LastCheckedAt(t, i).Some?
    ensures LiteralAt(t, i, "last checked")
    ensures AllIn(t[i + 12..LastCheckedAt(t, i).value.lo], ColonOrSpace)
    ensures AllIn(t[LastCheckedAt(t, i).value.lo..LastCheckedAt(t, i).value.hi], NotNewline)
    ensures LastCheckedAt(t, i).value.hi == |t| || IsNewline(t[LastCheckedAt(t, i).value.hi])
  {
    RestOfLineSound(t, i + 12);
  }

  lemma RestOfLineSound(t: string, p: nat)
    requires p <= |t| && RestOfLine(t, p).Some?
    ensures AllIn(t[p..RestOfLine(t, p).value.lo], ColonOrSpace)
    ensures AllIn(t[RestOfLine(t, p).value.lo..RestOfLine(t, p).value.hi], NotNewline)
    ensures RestOfLine(t, p).value.hi == |t| || IsNewline(t[RestOfLine(t, p).value.hi])
  {
    var q := LastNonNewline(t, p, p + Run(t, p, ColonOrSpace)).value;
    RunMembers(t, p, ColonOrSpace);
    RunMembers(t, q, NotNewline);
  }

  /** Where the capture after a "last checked" label starts: right after
      the whole run of separators, or, when that run reaches the end of the
      text, at its last character that is not a line break. */
  lemma LastCheckedAtStart(t: string, i: nat)
    requires i <= |t| && LastCheckedAt(t, i).Some?
    ensures var lo := LastCheckedAt(t, i).value.lo;
            !InClass(t[lo], ColonOrSpace)
            || (AllIn(t[lo..], ColonOrSpace) && forall k :: lo < k < |t| ==> IsNewline(t[k]))
    ensures var r := i + 12 + Run(t, i + 12, ColonOrSpace);
            r < |t| ==> LastCheckedAt(t, i).value.lo == r
  {
    RestOfLineStart(t, i + 12);
  }

  lemma RestOfLineStart(t: string, p: nat)
    requires p <= |t| && RestOfLine(t, p).Some?
    ensures var lo := RestOfLine(t, p).value.lo;
            !InClass(t[lo], ColonOrSpace)
            || (AllIn(t[lo..], ColonOrSpace) && forall k :: lo < k < |t| ==> IsNewline(t[k]))
    ensures var r := p + Run(t, p, ColonOrSpace);
            r < |t| ==> RestOfLine(t, p).value.lo == r
  {
    var r := p + Run(t, p, ColonOrSpace);
    var q := LastNonNewline(t, p, r).value;
    if q < r {
      RunMembers(t, p, ColonOrSpace);
      assert AllIn(t[q..], ColonOrSpace);
    }
  }

  /** Every "last checked" label followed by separators and a character
      that is not a line break is matched. */
  lemma LastCheckedAtComplete(t: string, i: nat, q: nat)
    requires i + 12 <= q < |t| && LiteralAt(t, i, "last checked")
    requires AllIn(t[i + 12..q], ColonOrSpace) && !IsNewline(t[q])
    ensures LastCheckedAt(t, i).Some?
  {
    RestOfLineComplete(t, i + 12, q);
  }

  lemma RestOfLineComplete(t: string, p: nat, q: nat)
    requires p <= q < |t| && AllIn(t[p..q], ColonOrSpace) && !IsNewline(t[q])
    ensures RestOfLine(t, p).Some?
  {
    forall k | p <= k < q
      ensures InClass(t[k], ColonOrSpace)
    {
      assert t[p..q][k - p] == t[k];
    }
    RunCovers(t, p, q - p, ColonOrSpace);
    var r := p + Run(t, p, ColonOrSpace);
    assert p <= q <= r;
  }

  // ---------------------------------------------------------------- search

  function MatchAt(p: Pattern, t: string, i: nat): (r: Option<Span>)
    requires i <= |t|
    ensures r.Some? ==> i <= r.value.lo <= r.value.hi <= |t|
  {
    match p
    case IpPort => IpPortAt(t, i)
    case Word(w) => WordAt(t, i, w)
    case CountryCode => CountryAt(t, i)
    case Latency => LatencyAt(t, i)
    case LabelledSpeed => LabelledSpeedAt(t, i)
    case BareSpeed => BareSpeedAt(t, i)
    case LabelledUptime => LabelledUptimeAt(t, i)
    case BareUptime => BareUptimeAt(t, i)
    case LastChecked => LastCheckedAt(t, i)
  }

  /** Python's `re.search`: the first start position, from `from` up to and
      including `last` (the end of the text), at which the matcher `m`
      succeeds, and what it captured there. */
  function Search(m: nat -> Option<Span>, last: nat, from: nat): (r: Option<Match>)
    ensures r.Some? ==> from <= r.value.start <= last && m(r.value.start) == Some(r.value.group)
    ensures r.Some? ==> forall k :: from <= k < r.value.start ==> m(k).None?
    ensures r.None? ==> forall k :: from <= k <= last ==> m(k).None?
    decreases last + 1 - from
  {
    if from > last then None
    else
      match m(from)
      case Some(g) => Some(Match(from, g))
      case None => Search(m, last, from + 1)
  }

  /** The leftmost match of `p` in `t`, as `re.search(p, t)` reports it. */
  function Find(p: Pattern, t: string): (r: Option<Match>)
    ensures r.Some? ==> r.value.start <= |t| && MatchAt(p, t, r.value.start) == Some(r.value.group)
    ensures r.Some? ==> forall k :: 0 <= k < r.value.start ==> MatchAt(p, t, k).None?
    ensures r.None? ==> forall k :: 0 <= k <= |t| ==> MatchAt(p, t, k).None?
  {
    var m := (k: nat) => if k <= |t| then MatchAt(p, t, k) else None;
    assert forall k: nat :: k <= |t| ==> m(k) == MatchAt(p, t, k);
    Search(m, |t|, 0)
  }

  /** `p` matches somewhere in `t`. */
  predicate Occurs(p: Pattern, t: string)
  {
    exists i :: 0 <= i <= |t| && MatchAt(p, t, i).Some?
  }

  /** The search finds a match exactly when the pattern matches somewhere. */
  lemma FindOccurs(p: Pattern, t: string)
    ensures Find(p, t).Some? <==> Occurs(p, t)
  {
    if Find(p, t).Some? {
      assert MatchAt(p, t, Find(p, t).value.start).Some?;
    }
  }

  /** The search reports a match at `i` exactly when `i` is the leftmost
      position where the pattern matches. */
  lemma FindIsLeftmost(p: Pattern, t: string, i: nat)
    requires i <= |t| && MatchAt(p, t, i).Some?
    requires forall k :: 0 <= k < i ==> MatchAt(p, t, k).None?
    ensures Find(p, t) == Some(Match(i, MatchAt(p, t, i).value))
  {
    var r := Find(p, t);
    assert r.Some? by {
      assert exists k :: 0 <= k <= |t| && MatchAt(p, t, k).Some?;
    }
    var s := r.value.start;
    assert i <= s by {
      assert MatchAt(p, t, s).Some?;
    }
    assert s <= i by {
      assert MatchAt(p, t, i).Some?;
    }
  }
}

=== FILE: proxy_api.dfy ===
/**
  The `/api/proxies` endpoint of main.py and the module-level cache it
  keeps: a scrape is attempted only when the cache was never filled or is
  older than the time to live; a failed scrape leaves the cache as it was
  and serves it stale when it holds records, and fails with status 500
  when it holds none.
 */
module ProxyApi {
  import opened Text
  import opened RowParser
  import opened Scraper

  /** Seconds for which a scrape is served from the cache. */
  const ScrapeTtl: int := 60

  /** Three hours, in seconds: the offset of the GMT+3 instant. */
  const Gmt3Offset: int := 10800

  /** The page that is scraped. */
  const SourceUrl: string := "https://spys.one/en/socks-proxy-list/"

  /** The cache: when it was last filled, in epoch seconds (0 for never),
      and the records of that scrape. */
  datatype CacheState = CacheState(ts: int, data: seq<Proxy>)

  /** A reply of the endpoint, its instants as epoch seconds. */
  datatype Reply = Reply(
    status: int,
    fetchedAt: Option<int>,
    fetchedAtGmt3: Option<int>,
    ttlSeconds: int,
    sourceUrl: string,
    proxies: seq<Proxy>,
    error: Option<string>)

  /** The reply and the cache after a request. */
  datatype Handled = Handled(next: CacheState, reply: Reply)

  /** A scrape is due when the cache was never filled or is strictly older
      than the time to live. */
  predicate RefreshDue(ts: int, now: int)
  {
    ts == 0 || now - ts > ScrapeTtl
  }

  /** The scraper failed: its error message is present and not empty. */
  predicate IsFailure(r: ScrapeResult)
  {
    r.error.Some? && r.error.value != ""
  }

  /** An instant and the same instant at GMT+3. */
  function At(ts: int): (Option<int>, Option<int>)
  {
    (Some(ts), Some(ts + Gmt3Offset))
  }

  /** The reply that serves the cache as it is. */
  function Served(s: CacheState, error: Option<string>): Reply
  {
    Reply(200, At(s.ts).0, At(s.ts).1, ScrapeTtl, SourceUrl, s.data, error)
  }

  /** A request at `now`, the browser giving `outcome` if it is asked. The
      cache changes only through a scrape that was due and did not fail;
      a reply with status 200 serves the cache as it now is, or as it stays
      after a failure, and status 500 serves nothing. */
  function Handle(s: CacheState, now: int, outcome: BrowserOutcome): (h: Handled)
    ensures h.next == s || (RefreshDue(s.ts, now) && h.next == CacheState(now, Scraped(outcome).data))
    ensures h.next != s ==> RefreshDue(s.ts, now) && !IsFailure(Scraped(outcome))
    ensures h.reply.status == 200 || h.reply.status == 500
    ensures h.reply.status == 200 ==> h.reply.proxies == h.next.data
    ensures h.reply.status == 500 ==> h.reply.proxies == [] && h.next == s && s.data == []
    ensures h.reply.ttlSeconds == ScrapeTtl && h.reply.sourceUrl == SourceUrl
  {
    if !RefreshDue(s.ts, now) then Handled(s, Served(s, None))
    else
      var scraped := Scraped(outcome);
      if IsFailure(scraped) then
        if s.data != [] then
          var when := if s.ts != 0 then At(s.ts) else (None, None);
          Handled(s, Reply(200, when.0, when.1, ScrapeTtl, SourceUrl, s.data, scraped.error))
        else
          Handled(s, Reply(500, At(now).0, At(now).1, ScrapeTtl, SourceUrl, [], scraped.error))
      else
        var n := CacheState(now, scraped.data);
        Handled(n, Served(n, None))
  }

  /** The module-level cache and the endpoint that reads and refills it. */
  class ProxyCache {
    var ts: int
    var data: seq<Proxy>

    /** The cache only ever holds a deduplicated scrape. */
    predicate Valid()
      reads this
    {
      DistinctKeys(data)
    }

    function State(): CacheState
      reads this
    {
      CacheState(ts, data)
    }

    constructor ()
      ensures ts == 0 && data == [] && Valid()
    {
      ts := 0;
      data := [];
    }

    method Request(now: int, outcome: BrowserOutcome) returns (reply: Reply)
      requires Valid()
      modifies this
      ensures Valid()
      ensures Handle(old(State()), now, outcome) == Handled(State(), reply)
    {
      if ts == 0 || now - ts > ScrapeTtl {
        var scraped := Scrape(outcome);
        if scraped.error.Some? && scraped.error.value != "" {
          if data != [] {
            var when := if ts != 0 then At(ts) else (None, None);
            reply := Reply(200, when.0, when.1, ScrapeTtl, SourceUrl, data, scraped.error);
          } else {
            reply := Reply(500, At(now).0, At(now).1, ScrapeTtl, SourceUrl, [], scraped.error);
          }
          return;
        }
        ts := now;
        data := scraped.data;
      }
      reply := Served(State(), None);
    }
  }

  // ---------------------------------------------------------------- properties

  /** Within the time to live the browser is not consulted: the cache is
      served unchanged, with status 200 and no error. */
  lemma FreshCacheIgnoresBrowser(s: CacheState, now: int, o1: BrowserOutcome, o2: BrowserOutcome)
    requires s.ts != 0 && now - s.ts <= ScrapeTtl
    ensures Handle(s, now, o1) == Handle(s, now, o2)
    ensures Handle(s, now, o1).next == s
    ensures Handle(s, now, o1).reply.status == 200 && Handle(s, now, o1).reply.error.None?
    ensures Handle(s, now, o1).reply.proxies == s.data && Handle(s, now, o1).reply.fetchedAt == Some(s.ts)
  {
  }

  /** The cache stays fresh for exactly the time to live: at that age it is
      served, one second later a scrape is due. */
  lemma TtlBoundary(s: CacheState, o: BrowserOutcome)
    requires s.ts != 0
    ensures Handle(s, s.ts + ScrapeTtl, o).next == s
    ensures RefreshDue(s.ts, s.ts + ScrapeTtl + 1)
  {
  }

  /** A failed scrape with a message leaves the cache as it was; the reply
      serves the cache with the message and status 200 when it holds
      records, stamped with the cache's time (none for a cache never
      filled), and no record with status 500, stamped `now`, when it is
      empty. */
  lemma FailedRefreshKeepsCache(s: CacheState, now: int, message: string)
    requires RefreshDue(s.ts, now) && message != ""
    ensures Handle(s, now, Failed(message)).next == s
    ensures Handle(s, now, Failed(message)).reply.error == Some(message)
    ensures s.data != [] ==> Handle(s, now, Failed(message)).reply.status == 200
    ensures s.data != [] ==> Handle(s, now, Failed(message)).reply.proxies == s.data
    ensures s.data == [] ==> Handle(s, now, Failed(message)).reply.status == 500
    ensures s.data == [] ==> Handle(s, now, Failed(message)).reply.proxies == []
    ensures s.data != [] ==> Handle(s, now, Failed(message)).reply.fetchedAt == (if s.ts != 0 then Some(s.ts) else None)
    ensures s.data == [] ==> Handle(s, now, Failed(message)).reply.fetchedAt == Some(now)
  {
  }

  /** A failure whose message is empty counts as a success that found no
      record: the cache is emptied and stamped with `now`. */
  lemma EmptyMessageCountsAsSuccess(s: CacheState, now: int)
    requires RefreshDue(s.ts, now)
    ensures Handle(s, now, Failed("")).next == CacheState(now, [])
    ensures Handle(s, now, Failed("")).reply == Served(CacheState(now, []), None)
  {
  }

  /** A rendered page refills the cache with its deduplicated records,
      which the reply serves, stamped `now`. */
  lemma SuccessReplacesCache(s: CacheState, now: int, rows: seq<string>)
    requires RefreshDue(s.ts, now)
    ensures Handle(s, now, Rendered(rows)).next == CacheState(now, FirstOccurrences(Parsed(rows)))
    ensures Handle(s, now, Rendered(rows)).reply.status == 200
    ensures Handle(s, now, Rendered(rows)).reply.error.None?
    ensures Handle(s, now, Rendered(rows)).reply.proxies == FirstOccurrences(Parsed(rows))
    ensures Handle(s, now, Rendered(rows)).reply.fetchedAt == Some(now)
  {
  }

  /** Status 500 comes exactly from a failed scrape while the cache holds
      no record; every other reply has status 200. */
  lemma Status500Iff(s: CacheState, now: int, o: BrowserOutcome)
    ensures Handle(s, now, o).reply.status == 500 <==>
              RefreshDue(s.ts, now) && o.Failed? && o.message != "" && s.data == []
    ensures Handle(s, now, o).reply.status in {200, 500}
  {
  }

  /** A scrape that found no record followed, after the time to live, by a
      failed scrape gives status 500, although the cache was filled. */
  lemma EmptyScrapeThenFailure(s: CacheState, t1: int, rows: seq<string>, t2: int, message: string)
    requires RefreshDue(s.ts, t1) && Parsed(rows) == []
    requires t2 - t1 > ScrapeTtl && message != ""
    ensures Handle(s, t1, Rendered(rows)).reply.status == 200
    ensures Handle(Handle(s, t1, Rendered(rows)).next, t2, Failed(message)).reply.status == 500
  {
  }

  /** After a successful scrape at `t1` (not the epoch itself), every
      request up to the time to live later serves the same records without
      a scrape. */
  lemma ServedWithinTtl(s: CacheState, t1: int, rows: seq<string>, t2: int, o: BrowserOutcome)
    requires RefreshDue(s.ts, t1) && t1 != 0 && t1 <= t2 <= t1 + ScrapeTtl
    ensures var n := Handle(s, t1, Rendered(rows)).next;
            Handle(n, t2, o).next == n && Handle(n, t2, o).reply.proxies == n.data
  {
  }

  /** The GMT+3 instant is the UTC instant three hours on. */
  lemma Gmt3IsShifted(s: CacheState, now: int, o: BrowserOutcome)
    ensures var r := Handle(s, now, o).reply;
            r.fetchedAt.Some? <==> r.fetchedAtGmt3.Some?
    ensures var r := Handle(s, now, o).reply;
            r.fetchedAt.Some? ==> r.fetchedAtGmt3.value == r.fetchedAt.value + Gmt3Offset
  {
  }

  /** Replies and the cache never hold two records with the same address
      and port. */
  lemma HandleKeepsDistinct(s: CacheState, now: int, o: BrowserOutcome)
    requires DistinctKeys(s.data)
    ensures DistinctKeys(Handle(s, now, o).next.data)
    ensures DistinctKeys(Handle(s, now, o).reply.proxies)
  {
  }
}

=== FILE: row_parser.dfy ===
/**
  The parsing of one table row in `scrape_spys` (main.py): the row's text,
  stripped, is searched for an address and a port; a row without one is
  skipped, and every other field falls back to the empty string when its
  pattern does not match.
 */
module RowParser {
  import opened Text
  import opened Patterns

  /** One scraped proxy, the dictionary the scraper builds for a row. */
  datatype Proxy = Proxy(
    ip: string,
    port: string,
    ipPort: string,
    kind: string,
    country: string,
    city: string,
    latency: string,
    speed: string,
    uptime: string,
    lastCheckedRaw: string,
    raw: string)

  /** How much of the row's text a record keeps as its excerpt. */
  const ExcerptLength: nat := 300

  /** The text of the group of the leftmost match of `p`, or "" without one. */
  function Capture(p: Pattern, t: string): string
  {
    match Find(p, t)
    case None => ""
    case Some(m) => t[m.group.lo..m.group.hi]
  }

  // ---------------------------------------------------------------- kind

  /** No word character right before position `i` nor right after `i + n`. */
  predicate StandsAlone(t: string, i: nat, n: nat)
    requires i + n <= |t|
  {
    (i == 0 || !IsWord(t[i - 1])) && (i + n == |t| || !IsWord(t[i + n]))
  }

  /** `w` occurs in `t`, in any case, as a whole word. */
  predicate HasWord(t: string, w: string)
  {
    exists i :: 0 <= i && i + |w| <= |t| && SameIgnoringCase(t[i..i + |w|], w) && StandsAlone(t, i, |w|)
  }

  /** The protocol: SOCKS5, else SOCKS4, else HTTP, each as a whole word in any
      case; "" when none occurs. */
  function Kind(text: string): (k: string)
    ensures k in ["SOCKS5", "SOCKS4", "HTTP", ""]
  {
    if Find(Word("socks5"), text).Some? then "SOCKS5"
    else if Find(Word("socks4"), text).Some? then "SOCKS4"
    else if Find(Word("http"), text).Some? then "HTTP"
    else ""
  }

  /** The protocol words are tried in priority order. */
  lemma KindPriority(text: string)
    ensures Kind(text) == if HasWord(text, "socks5") then "SOCKS5"
                          else if HasWord(text, "socks4") then "SOCKS4"
                          else if HasWord(text, "http") then "HTTP"
                          else ""
  {
    WordFound(text, "socks5");
    WordFound(text, "socks4");
    WordFound(text, "http");
  }

  /** Searching for a word that begins and ends with word characters finds it
      exactly when it stands alone somewhere. */
  lemma WordFound(t: string, w: string)
    requires w != [] && IsWord(w[0]) && IsWord(w[|w| - 1])
    ensures Find(Word(w), t).Some? <==> HasWord(t, w)
  {
    if Find(Word(w), t).Some? {
      var i := Find(Word(w), t).value.start;
      assert WordAt(t, i, w).Some?;
      WordEdges(t, i, w);
    }
    if HasWord(t, w) {
      var i :| 0 <= i && i + |w| <= |t| && SameIgnoringCase(t[i..i + |w|], w) && StandsAlone(t, i, |w|);
      WordEdges(t, i, w);
      assert MatchAt(Word(w), t, i).Some?;
    }
  }

  /** For a word spelt `w` at `i`, the boundary tests are the tests that no
      word character touches it. */
  lemma WordEdges(t: string, i: nat, w: string)
    requires w != [] && IsWord(w[0]) && IsWord(w[|w| - 1])
    requires i + |w| <= |t| && SameIgnoringCase(t[i..i + |w|], w)
    ensures Boundary(t, i) && Boundary(t, i + |w|) <==> StandsAlone(t, i, |w|)
  {
    assert Lower(t[i..i + |w|][0]) == Lower(w[0]) && t[i..i + |w|][0] == t[i];
    assert Lower(t[i..i + |w|][|w| - 1]) == Lower(w[|w| - 1]) && t[i..i + |w|][|w| - 1] == t[i + |w| - 1];
    FoldedWord(t[i], w[0]);
    FoldedWord(t[i + |w| - 1], w[|w| - 1]);
  }

  /** A character that folds to the same as a word character is one. */
  lemma FoldedWord(c: char, d: char)
    requires IsWord(d) && Lower(c) == Lower(d)
    ensures IsWord(c)
  {
  }

  // ---------------------------------------------------------------- country

  /** Two upper-case letters standing as a word at `i`. */
  predicate IsCountryAt(t: string, i: nat)
  {
    i + 2 <= |t| && IsUpper(t[i]) && IsUpper(t[i + 1]) && StandsAlone(t, i, 2)
  }

  /** The first two-letter upper-case word, or "". */
  function Country(text: string): (c: string)
    ensures c == "" || (|c| == 2 && IsUpper(c[0]) && IsUpper(c[1]))
  {
    match Find(CountryCode, text)
    case None => ""
    case Some(m) =>
      assert CountryAt(text, m.start).Some?;
      text[m.group.lo..m.group.hi]
  }

  /** The country is the leftmost two-letter upper-case word. */
  lemma CountryIsLeftmost(text: string, i: nat)
    requires IsCountryAt(text, i)
    requires forall k :: 0 <= k < i ==> !IsCountryAt(text, k)
    ensures Country(text) == text[i..i + 2]
  {
    forall k | 0 <= k <= i
      ensures MatchAt(CountryCode, text, k).Some? <==> IsCountryAt(text, k)
    {
      assert MatchAt(CountryCode, text, k) == CountryAt(text, k);
    }
    FindIsLeftmost(CountryCode, text, i);
  }

  /** The country is "" exactly when no two-letter upper-case word occurs. */
  lemma CountryAbsent(text: string)
    ensures Country(text) == "" <==> forall i :: 0 <= i <= |text| ==> !IsCountryAt(text, i)
  {
    if Country(text) == "" {
      forall i | 0 <= i <= |text|
        ensures !IsCountryAt(text, i)
      {
        assert MatchAt(CountryCode, text, i) == CountryAt(text, i);
      }
    } else {
      var i := Find(CountryCode, text).value.start;
      assert MatchAt(CountryCode, text, i) == CountryAt(text, i);
      assert IsCountryAt(text, i);
    }
  }

  // ---------------------------------------------------------------- latency

  /** The first latency figure ("120 ms"), or "". */
  function Latency(text: string): (l: string)
    ensures l == "" || IsLatency(l)
  {
    match Find(Pattern.Latency, text)
    case None => ""
    case Some(m) =>
      assert LatencyAt(text, m.start).Some?;
      text[m.group.lo..m.group.hi]
  }

  /** The latency is the leftmost latency text. */
  lemma LatencyIsLeftmost(text: string, i: nat, e: nat)
    requires i <= e <= |text| && IsLatency(text[i..e])
    requires forall k, f :: 0 <= k < i && k <= f <= |text| ==> !IsLatency(text[k..f])
    ensures Latency(text) == text[i..e]
  {
    LatencyAtComplete(text, i, e);
    forall k | 0 <= k < i
      ensures MatchAt(Pattern.Latency, text, k).None?
    {
      assert MatchAt(Pattern.Latency, text, k) == LatencyAt(text, k);
    }
    FindIsLeftmost(Pattern.Latency, text, i);
  }

  /** The latency is "" exactly when no latency text occurs. */
  lemma LatencyAbsent(text: string)
    ensures Latency(text) == "" <==> forall i, e :: 0 <= i <= e <= |text| ==> !IsLatency(text[i..e])
  {
    match Find(Pattern.Latency, text)
    case None => NoLatencyText(text);
    case Some(m) =>
      assert LatencyAt(text, m.start) == Some(m.group);
      assert IsLatency(text[m.start..m.group.hi]);
  }

  lemma NoLatencyText(text: string)
    requires Find(Pattern.Latency, text).None?
    ensures forall i, e :: 0 <= i <= e <= |text| ==> !IsLatency(text[i..e])
  {
    forall i, e | 0 <= i <= e <= |text| && IsLatency(text[i..e])
      ensures false
    {
      assert MatchAt(Pattern.Latency, text, i) == LatencyAt(text, i);
      LatencyAtComplete(text, i, e);
    }
  }

  // ---------------------------------------------------------------- speed

  /** The figure after the first "speed" label, else the first figure with a
      bandwidth unit, else "". */
  function Speed(text: string): (s: string)
    ensures s == "" || IsLabelledFigure(s) || IsBareFigure(s)
  {
    match Find(LabelledSpeed, text)
    case Some(m) =>
      assert LabelledSpeedAt(text, m.start) == Some(m.group);
      LabelledSpeedAtSound(text, m.start);
      text[m.group.lo..m.group.hi]
    case None =>
      match Find(BareSpeed, text)
      case None => ""
      case Some(m) =>
        assert BareSpeedAt(text, m.start) == Some(m.group);
        BareSpeedAtSound(text, m.start);
        text[m.group.lo..m.group.hi]
  }

  /** A labelled speed wins over a bare one; the speed is "" only when neither
      occurs. */
  lemma SpeedFallback(text: string)
    ensures Occurs(LabelledSpeed, text) ==> Speed(text) == Capture(LabelledSpeed, text) != ""
    ensures Occurs(LabelledSpeed, text) ==> IsLabelledFigure(Speed(text))
    ensures !Occurs(LabelledSpeed, text) ==> Speed(text) == Capture(BareSpeed, text)
    ensures Speed(text) == "" <==> !Occurs(LabelledSpeed, text) && !Occurs(BareSpeed, text)
  {
    FindOccurs(LabelledSpeed, text);
    FindOccurs(BareSpeed, text);
    if Find(LabelledSpeed, text).Some? {
      assert LabelledSpeedAt(text, Find(LabelledSpeed, text).value.start).Some?;
      LabelledSpeedAtSound(text, Find(LabelledSpeed, text).value.start);
    } else if Find(BareSpeed, text).Some? {
      assert BareSpeedAt(text, Find(BareSpeed, text).value.start).Some?;
    }
  }

  /** The speed is the figure after the leftmost "speed" label. */
  lemma SpeedIsFirstLabel(t: string, i: nat, g: Span)
    requires i <= |t| && LabelledSpeedAt(t, i) == Some(g)
    requires forall k :: 0 <= k < i ==> LabelledSpeedAt(t, k).None?
    ensures Speed(t) == t[g.lo..g.hi]
  {
    assert MatchAt(LabelledSpeed, t, i) == Some(g);
    FindIsLeftmost(LabelledSpeed, t, i);
  }

  // ---------------------------------------------------------------- uptime

  /** The figure after the first "uptime" label, else the first one-to-three
      digit percentage, else "". */
  function Uptime(text: string): (u: string)
    ensures Occurs(LabelledUptime, text) ==> u != "" && AllIn(u, DigitsDotsPercent)
    ensures !Occurs(LabelledUptime, text) ==> u == "" || IsPercentage(u)
  {
    FindOccurs(LabelledUptime, text);
    match Find(LabelledUptime, text)
    case Some(m) =>
      assert LabelledUptimeAt(text, m.start).Some?;
      text[m.group.lo..m.group.hi]
    case None =>
      match Find(BareUptime, text)
      case None => ""
      case Some(m) =>
        assert BareUptimeAt(text, m.start).Some?;
        text[m.group.lo..m.group.hi]
  }

  /** Without an "uptime" label, the uptime is the leftmost percentage. */
  lemma UptimeFallback(text: string, i: nat, e: nat)
    requires !Occurs(LabelledUptime, text)
    requires i <= e <= |text| && IsPercentage(text[i..e])
    requires forall k, f :: 0 <= k < i && k <= f <= |text| ==> !IsPercentage(text[k..f])
    ensures Uptime(text) == text[i..e]
  {
    FindOccurs(LabelledUptime, text);
    BareUptimeAtComplete(text, i, e);
    forall k | 0 <= k < i
      ensures MatchAt(BareUptime, text, k).None?
    {
      assert MatchAt(BareUptime, text, k) == BareUptimeAt(text, k);
    }
    FindIsLeftmost(BareUptime, text, i);
  }

  /** A labelled uptime wins; the uptime is "" only when neither form occurs. */
  lemma UptimePrefersLabel(text: string)
    ensures Occurs(LabelledUptime, text) ==> Uptime(text) == Capture(LabelledUptime, text) != ""
    ensures Uptime(text) == "" <==> !Occurs(LabelledUptime, text) && !Occurs(BareUptime, text)
  {
    FindOccurs(LabelledUptime, text);
    FindOccurs(BareUptime, text);
    if Find(LabelledUptime, text).Some? {
      assert LabelledUptimeAt(text, Find(LabelledUptime, text).value.start).Some?;
    } else if Find(BareUptime, text).Some? {
      assert BareUptimeAt(text, Find(BareUptime, text).value.start).Some?;
    }
  }

  // ---------------------------------------------------------------- last checked

  /** The rest of the line after the first "last checked" label, stripped. */
  function LastChecked(text: string): (r: string)
    ensures forall k :: 0 <= k < |r| ==> !IsNewline(r[k])
    ensures r == [] || (!IsSpace(r[0]) && !IsSpace(r[|r| - 1]))
    ensures r != [] ==> Occurs(Pattern.LastChecked, text)
  {
    match Find(Pattern.LastChecked, text)
    case None => ""
    case Some(m) =>
      assert LastCheckedAt(text, m.start) == Some(m.group);
      LastCheckedAtSound(text, m.start);
      StripWithinLine(text[m.group.lo..m.group.hi]);
      Strip(text[m.group.lo..m.group.hi])
  }

  /** Stripping a text without line breaks leaves none. */
  lemma StripWithinLine(line: string)
    requires AllIn(line, NotNewline)
    ensures forall k :: 0 <= k < |Strip(line)| ==> !IsNewline(Strip(line)[k])
  {
    var r := Strip(line);
    var a := Run(line, 0, Space);
    forall k | 0 <= k < |r|
      ensures !IsNewline(r[k])
    {
      assert r[k] == line[a + k];
      assert InClass(line[a + k], NotNewline);
    }
  }

  /** The last-checked value is the stripped rest of the line after the
      leftmost label. */
  lemma LastCheckedIsFirstLabel(t: string, i: nat, g: Span)
    requires i <= |t| && LastCheckedAt(t, i) == Some(g)
    requires forall k :: 0 <= k < i ==> LastCheckedAt(t, k).None?
    ensures LastChecked(t) == Strip(t[g.lo..g.hi])
  {
    assert MatchAt(Pattern.LastChecked, t, i) == Some(g);
    FindIsLeftmost(Pattern.LastChecked, t, i);
  }

  // ---------------------------------------------------------------- row

  /** The first address and port in the text, as the search finds it. */
  function FirstAddress(text: string): (a: Option<string>)
    ensures a.Some? ==> IsIpPort(a.value)
  {
    match Find(IpPort, text)
    case None => None
    case Some(m) =>
      assert IpPortAt(text, m.start) == Some(m.group);
      IpPortAtSound(text, m.start);
      Some(text[m.start..m.group.hi])
  }

  /** An address is found exactly when the text holds one. */
  lemma FirstAddressFound(text: string)
    ensures FirstAddress(text).Some? <==> exists i, e :: 0 <= i <= e <= |text| && IsIpPort(text[i..e])
  {
    if Find(IpPort, text).Some? {
      var i := Find(IpPort, text).value.start;
      assert IpPortAt(text, i).Some?;
      IpPortAtSound(text, i);
      var e := IpPortAt(text, i).value.hi;
      assert IsIpPort(text[i..e]);
    } else {
      forall i, e | 0 <= i <= e <= |text| && IsIpPort(text[i..e])
        ensures false
      {
        assert MatchAt(IpPort, text, i) == IpPortAt(text, i);
        IpPortAtComplete(text, i, e);
      }
    }
  }

  /** The address found is the leftmost one, with the longest port that
      starts there (at most five digits). */
  lemma FirstAddressLeftmostLongest(text: string, i: nat, e: nat)
    requires i <= e <= |text| && IsIpPort(text[i..e])
    requires forall k, f :: 0 <= k < i && k <= f <= |text| ==> !IsIpPort(text[k..f])
    ensures FirstAddress(text).Some?
    ensures var s := FirstAddress(text).value; e <= i + |s| <= |text| && s == text[i..i + |s|]
  {
    IpPortAtComplete(text, i, e);
    forall k | 0 <= k < i
      ensures MatchAt(IpPort, text, k).None?
    {
      assert MatchAt(IpPort, text, k) == IpPortAt(text, k);
      if IpPortAt(text, k).Some? {
        IpPortAtSound(text, k);
      }
    }
    FindIsLeftmost(IpPort, text, i);
  }

  /** A row: its stripped text must hold an address and a port; the first one
      found gives the address, the port and the key of the record. */
  function ParseRow(row: string): (r: Option<Proxy>)
    ensures r.Some? ==> IsIpPort(r.value.ipPort) && r.value.ipPort == r.value.ip + [':'] + r.value.port
    ensures r.Some? ==> IsDottedQuad(r.value.ip) && IsDecimal(r.value.port, 1, 5) && r.value.city == ""
    ensures r.Some? ==> |r.value.raw| == Min(ExcerptLength, |Strip(row)|) && r.value.raw == Strip(row)[..|r.value.raw|]
  {
    var text := Strip(row);
    match FirstAddress(text)
    case None => None
    case Some(ipPort) =>
      IpPortHalves(ipPort);
      var parts := Split(ipPort, ':');
      var port := if |parts| > 1 then parts[1] else "";
      Some(Proxy(parts[0], port, ipPort, Kind(text), Country(text), "",
                 Latency(text), Speed(text), Uptime(text), LastChecked(text),
                 text[..Min(ExcerptLength, |text|)]))
  }

  /** An address and a port, split at its colon. */
  lemma IpPortHalves(s: string)
    requires IsIpPort(s)
    ensures s == Split(s, ':')[0] + [':'] + Split(s, ':')[1]
  {
    var parts := Split(s, ':');
    JoinSplit(s, ':');
    assert parts[1..] == [parts[1]];
  }

  /** The record's key is the first address found in the stripped row. */
  lemma ParseRowAddress(row: string)
    ensures ParseRow(row).Some? <==> FirstAddress(Strip(row)).Some?
    ensures ParseRow(row).Some? ==> ParseRow(row).value.ipPort == FirstAddress(Strip(row)).value
  {
  }

  /** A row is kept exactly when its stripped text holds an address and a port. */
  lemma ParseRowKeeps(row: string)
    ensures ParseRow(row).Some? <==>
              exists i, e :: 0 <= i <= e <= |Strip(row)| && IsIpPort(Strip(row)[i..e])
  {
    ParseRowAddress(row);
    FirstAddressFound(Strip(row));
  }

  /** The record's address and port is the leftmost one in the stripped row,
      with the longest port that starts there. */
  lemma ParseRowLeftmostLongest(row: string, i: nat, e: nat)
    requires i <= e <= |Strip(row)| && IsIpPort(Strip(row)[i..e])
    requires forall k, f :: 0 <= k < i && k <= f <= |Strip(row)| ==> !IsIpPort(Strip(row)[k..f])
    ensures ParseRow(row).Some?
    ensures var s := ParseRow(row).value.ipPort;
            e <= i + |s| <= |Strip(row)| && s == Strip(row)[i..i + |s|]
  {
    ParseRowAddress(row);
    FirstAddressLeftmostLongest(Strip(row), i, e);
  }

  // ---------------------------------------------------------------- examples

  /** A labelled speed keeps only the figure when its unit is "MB/s" after a
      space: the label's optional unit admits a space only before "KB/s". */
  lemma LabelledSpeedDropsUnit(t: string)
    requires t == "Speed: 1.2 MB/s"
    ensures Speed(t) == "1.2"
  {
    SpeedLabelOfExample(t);
    SpeedFigureOfExample(t);
    assert LabelledSpeedAt(t, 0) == Some(Span(7, 10));
    SpeedIsFirstLabel(t, 0, Span(7, 10));
    ThreeChars(t, 7);
  }

  lemma SpeedLabelOfExample(t: string)
    requires t == "Speed: 1.2 MB/s"
    ensures LiteralAt(t, 0, "speed")
  {
    assert t[0..5] == "Speed";
    assert forall k :: 0 <= k < 5 ==> Lower(t[0..5][k]) == "speed"[k];
  }

  lemma SpeedFigureOfExample(t: string)
    requires t == "Speed: 1.2 MB/s"
    ensures FigureAfter(t, 5) == Some(Span(7, 10))
  {
    RunIs(t, 5, 2, ColonOrSpace);
    RunIs(t, 7, 3, DigitsAndDots);
    assert LabelUnit(t, 10) == 0 by {
      assert t[10..14][0] == ' ';
      assert t[11..15][0] == 'M' && Lower('M') == 'm';
    }
  }

  lemma ThreeChars(t: string, i: nat)
    requires i + 3 <= |t|
    ensures t[i..i + 3] == [t[i], t[i + 1], t[i + 2]]
  {
  }

  /** When the label ends the text, the engine gives back the colon it took
      as a separator, and the colon is what is captured. */
  lemma LastCheckedTakesColon(t: string)
    requires t == "Last checked:"
    ensures LastChecked(t) == ":"
  {
    LastCheckedOfExample(t);
    LastCheckedOneChar(t, Span(12, 13));
  }

  /** The separator run takes line breaks too: when the label ends its line,
      the note is taken from the next line. */
  lemma LastCheckedCrossesLineBreak(t: string)
    requires t == "Last checked:\nfoo"
    ensures LastChecked(t) == "foo"
  {
    assert LastCheckedAt(t, 0) == Some(Span(14, 17)) by {
      LastCheckedOfLineBreakExample(t);
    }
    assert t[14..17] == "foo" && !IsSpace(t[14]) && !IsSpace(t[16]);
    LastCheckedUnspaced(t, Span(14, 17));
  }

  /** A capture with no whitespace at either edge is the note as it is. */
  lemma LastCheckedUnspaced(t: string, g: Span)
    requires LastCheckedAt(t, 0) == Some(g)
    requires !IsSpace(t[g.lo]) && !IsSpace(t[g.hi - 1])
    ensures LastChecked(t) == t[g.lo..g.hi]
  {
    var s := t[g.lo..g.hi];
    assert Strip(s) == s by {
      assert s[0] == t[g.lo] && s[|s| - 1] == t[g.hi - 1];
      StripUnspaced(s);
    }
    LastCheckedIsFirstLabel(t, 0, g);
  }

  lemma LastCheckedOfLineBreakExample(t: string)
    requires t == "Last checked:\nfoo"
    ensures LastCheckedAt(t, 0) == Some(Span(14, 17))
  {
    assert t[..12] == "Last checked";
    LastCheckedLabelOfExample(t);
    RunIs(t, 12, 2, ColonOrSpace);
    RunIs(t, 14, 3, NotNewline);
  }

  /** A text with no whitespace at either edge is its own strip. */
  lemma StripUnspaced(s: string)
    requires s != [] && !IsSpace(s[0]) && !IsSpace(s[|s| - 1])
    ensures Strip(s) == s
  {
    RunIs(s, 0, 0, Space);
  }

  /** A one-character capture that is not whitespace is kept as it is. */
  lemma LastCheckedOneChar(t: string, g: Span)
    requires LastCheckedAt(t, 0) == Some(g) && g.hi == g.lo + 1 && !IsSpace(t[g.lo])
    ensures LastChecked(t) == [t[g.lo]]
  {
    LastCheckedIsFirstLabel(t, 0, g);
    StripOne(t, g.lo);
  }

  lemma StripOne(t: string, i: nat)
    requires i < |t| && !IsSpace(t[i])
    ensures Strip(t[i..i + 1]) == [t[i]]
  {
    var s := t[i..i + 1];
    assert s == [t[i]];
    RunIs(s, 0, 0, Space);
  }

  lemma LastCheckedOfExample(t: string)
    requires t == "Last checked:"
    ensures LastCheckedAt(t, 0) == Some(Span(12, 13))
  {
    LastCheckedLabelOfExample(t);
    RunIs(t, 12, 1, ColonOrSpace);
    assert LastNonNewline(t, 12, 13) == Some(12);
    RunIs(t, 12, 1, NotNewline);
  }

  lemma LastCheckedLabelOfExample(t: string)
    requires 12 <= |t| && t[..12] == "Last checked"
    ensures LiteralAt(t, 0, "last checked")
  {
    assert t[0..12] == "Last checked";
    assert forall k :: 0 <= k < 12 ==> Lower(t[0..12][k]) == "last checked"[k];
  }
}

=== FILE: scraper.dfy ===
/**
  `scrape_spys` (main.py) around the row parser: the rows the browser
  rendered are parsed in order, rows without an address are skipped, and the
  records are deduplicated by their address and port, the first record for
  each one being kept. A browser failure, whatever stage it came from,
  discards everything and is reported with its message.
 */
module Scraper {
  import opened Text
  import opened RowParser

  /** What the headless browser gave back: the failure it raised, or the
      text of every table row of the page, in document order. */
  datatype BrowserOutcome = Failed(message: string) | Rendered(rows: seq<string>)

  /** The scraper's result: an error message, or none and the records. */
  datatype ScrapeResult = ScrapeResult(error: Option<string>, data: seq<Proxy>)

  // ---------------------------------------------------------------- parsing

  /** The records `parse` gives for the rows that it accepts, in row order. */
  function Collect(parse: string -> Option<Proxy>, rows: seq<string>): (ps: seq<Proxy>)
    ensures |ps| <= |rows|
  {
    if rows == [] then []
    else
      var ps := Collect(parse, rows[..|rows| - 1]);
      match parse(rows[|rows| - 1])
      case None => ps
      case Some(p) => ps + [p]
  }

  /** The records of the rows that hold an address, in row order. */
  function Parsed(rows: seq<string>): (ps: seq<Proxy>)
  {
    Collect(ParseRow, rows)
  }

  /** The address fields of a record the row parser produced. */
  predicate IsIpPortRecord(p: Proxy)
  {
    Patterns.IsIpPort(p.ipPort) && p.ipPort == p.ip + [':'] + p.port
  }

  /** The loop of `scrape_spys` over the rendered rows. */
  method ParseRows(rows: seq<string>) returns (results: seq<Proxy>)
    ensures results == Parsed(rows)
  {
    results := [];
    var i := 0;
    while i < |rows|
      invariant 0 <= i <= |rows|
      invariant results == Collect(ParseRow, rows[..i])
    {
      CollectStep(ParseRow, rows, i);
      var r := ParseRow(rows[i]);
      if r.Some? {
        results := results + [r.value];
      }
      i := i + 1;
    }
    assert rows[..|rows|] == rows;
  }

  /** One more row adds its record, if `parse` gives one, at the end. */
  lemma CollectStep(parse: string -> Option<Proxy>, rows: seq<string>, i: nat)
    requires i < |rows|
    ensures parse(rows[i]).None? ==> Collect(parse, rows[..i + 1]) == Collect(parse, rows[..i])
    ensures parse(rows[i]).Some? ==> Collect(parse, rows[..i + 1]) == Collect(parse, rows[..i]) + [parse(rows[i]).value]
  {
    assert rows[..i + 1][..i] == rows[..i];
  }

  /** Every record comes from a row, and the records keep the rows' order:
      record j is what `parse` gives for row idx[j], and the indices
      increase. */
  lemma {:induction false} CollectFromRows(parse: string -> Option<Proxy>, rows: seq<string>) returns (idx: seq<nat>)
    ensures |idx| == |Collect(parse, rows)|
    ensures forall j :: 0 <= j < |idx| ==> idx[j] < |rows| && parse(rows[idx[j]]) == Some(Collect(parse, rows)[j])
    ensures forall j, k :: 0 <= j < k < |idx| ==> idx[j] < idx[k]
    ensures forall k :: 0 <= k < |rows| && parse(rows[k]).Some? ==> k in idx
  {
    if rows == [] {
      idx := [];
    } else {
      var front := rows[..|rows| - 1];
      var before := CollectFromRows(parse, front);
      forall j | 0 <= j < |before|
        ensures rows[before[j]] == front[before[j]]
      {
      }
      forall k | 0 <= k < |rows| - 1
        ensures rows[k] == front[k]
      {
      }
      if parse(rows[|rows| - 1]).Some? {
        idx := before + [|rows| - 1];
      } else {
        idx := before;
      }
    }
  }

  /** A row that `parse` accepts gives a record. */
  lemma {:induction false} CollectKeepsRow(parse: string -> Option<Proxy>, rows: seq<string>, k: nat)
    requires k < |rows| && parse(rows[k]).Some?
    ensures parse(rows[k]).value in Collect(parse, rows)
  {
    var front := rows[..|rows| - 1];
    if k < |rows| - 1 {
      assert front[k] == rows[k];
      CollectKeepsRow(parse, front, k);
    }
  }

  /** Every parsed record carries an address and a port split at its colon. */
  lemma ParsedRecords(rows: seq<string>)
    ensures forall j :: 0 <= j < |Parsed(rows)| ==> IsIpPortRecord(Parsed(rows)[j])
  {
    var idx := CollectFromRows(ParseRow, rows);
    forall j | 0 <= j < |Parsed(rows)|
      ensures IsIpPortRecord(Parsed(rows)[j])
    {
      ParseRowRecord(rows[idx[j]]);
    }
  }

  lemma ParseRowRecord(row: string)
    ensures ParseRow(row).Some? ==> IsIpPortRecord(ParseRow(row).value)
  {
  }

  // ---------------------------------------------------------------- dedup

  /** The addresses and ports the records carry. */
  function Keys(s: seq<Proxy>): set<string>
  {
    if s == [] then {} else Keys(s[..|s| - 1]) + {s[|s| - 1].ipPort}
  }

  /** A key is carried exactly when some record holds it. */
  lemma {:induction false} KeysHold(s: seq<Proxy>, key: string)
    ensures key in Keys(s) <==> exists j :: 0 <= j < |s| && s[j].ipPort == key
  {
    if s != [] {
      var front := s[..|s| - 1];
      KeysHold(front, key);
      if exists j :: 0 <= j < |front| && front[j].ipPort == key {
        var j :| 0 <= j < |front| && front[j].ipPort == key;
        assert s[j] == front[j];
      }
      if exists j :: 0 <= j < |s| && s[j].ipPort == key {
        var j :| 0 <= j < |s| && s[j].ipPort == key;
        if j < |s| - 1 {
          assert front[j] == s[j];
        }
      }
    }
  }

  predicate DistinctKeys(s: seq<Proxy>)
  {
    forall a, b :: 0 <= a < b < |s| ==> s[a].ipPort != s[b].ipPort
  }

  /** The records of `s` whose address and port no earlier record carries. */
  function FirstOccurrences(s: seq<Proxy>): (u: seq<Proxy>)
    ensures |u| <= |s|
  {
    if s == [] then []
    else
      var u := FirstOccurrences(s[..|s| - 1]);
      if s[|s| - 1].ipPort in Keys(u) then u else u + [s[|s| - 1]]
  }

  lemma KeysAppend(s: seq<Proxy>, p: Proxy)
    ensures Keys(s + [p]) == Keys(s) + {p.ipPort}
  {
    assert (s + [p])[..|s|] == s;
  }

  /** The loop of `scrape_spys` that removes duplicates, with its set of
      the keys seen so far. */
  method KeepFirst(results: seq<Proxy>) returns (uniq: seq<Proxy>)
    ensures uniq == FirstOccurrences(results)
  {
    var seen: set<string> := {};
    uniq := [];
    var i := 0;
    while i < |results|
      invariant 0 <= i <= |results|
      invariant uniq == FirstOccurrences(results[..i])
      invariant seen == Keys(uniq)
    {
      var r := results[i];
      assert results[..i + 1][..i] == results[..i] && results[..i + 1][i] == r;
      if r.ipPort !in seen {
        KeysAppend(uniq, r);
        seen := seen + {r.ipPort};
        uniq := uniq + [r];
      }
      i := i + 1;
    }
    assert results[..|results|] == results;
  }

  /** No two kept records share an address and port. */
  lemma {:induction false} FirstOccurrencesDistinct(s: seq<Proxy>)
    ensures DistinctKeys(FirstOccurrences(s))
  {
    if s != [] {
      var u := FirstOccurrences(s[..|s| - 1]);
      FirstOccurrencesDistinct(s[..|s| - 1]);
      KeysHold(u, s[|s| - 1].ipPort);
    }
  }

  /** Every address and port of the input is kept. */
  lemma {:induction false} FirstOccurrencesKeys(s: seq<Proxy>)
    ensures Keys(FirstOccurrences(s)) == Keys(s)
  {
    if s != [] {
      var front := s[..|s| - 1];
      var x := s[|s| - 1];
      FirstOccurrencesKeys(front);
      var u := FirstOccurrences(front);
      if x.ipPort !in Keys(u) {
        KeysAppend(u, x);
      }
    }
  }

  /** Record j of `u` is input `idx[j]`, the indices increase, and each
      of those input records is the first with its address and port. */
  predicate FirstIndices(s: seq<Proxy>, u: seq<Proxy>, idx: seq<nat>)
  {
    && |idx| == |u|
    && (forall j :: 0 <= j < |idx| ==> idx[j] < |s| && u[j] == s[idx[j]])
    && (forall j, k :: 0 <= j < k < |idx| ==> idx[j] < idx[k])
    && (forall j, k :: 0 <= j < |idx| && 0 <= k < idx[j] ==> s[k].ipPort != s[idx[j]].ipPort)
  }

  /** The kept records are a subsequence of the input, record j being
      input idx[j], and each is the first record of the input with its
      address and port. */
  lemma {:induction false} FirstOccurrencesIndices(s: seq<Proxy>) returns (idx: seq<nat>)
    ensures FirstIndices(s, FirstOccurrences(s), idx)
  {
    if s == [] {
      idx := [];
    } else {
      var front := s[..|s| - 1];
      var x := s[|s| - 1];
      var u := FirstOccurrences(front);
      var before := FirstOccurrencesIndices(front);
      FirstIndicesExtend(s, u, before);
      if x.ipPort in Keys(u) {
        idx := before;
      } else {
        FirstOccurrencesKeys(front);
        KeysHold(front, x.ipPort);
        forall k | 0 <= k < |s| - 1
          ensures s[k].ipPort != x.ipPort
        {
          assert s[k] == front[k];
        }
        FirstIndicesAppend(s, u, before);
        var last: nat := |s| - 1;
        idx := before + [last];
      }
    }
  }

  lemma FirstIndicesExtend(s: seq<Proxy>, u: seq<Proxy>, idx: seq<nat>)
    requires |s| > 0 && FirstIndices(s[..|s| - 1], u, idx)
    ensures FirstIndices(s, u, idx)
  {
    var front := s[..|s| - 1];
    forall j | 0 <= j < |idx|
      ensures s[idx[j]] == front[idx[j]]
      ensures forall k :: 0 <= k < idx[j] ==> s[k] == front[k]
    {
    }
  }

  lemma FirstIndicesAppend(s: seq<Proxy>, u: seq<Proxy>, idx: seq<nat>)
    requires |s| > 0 && FirstIndices(s, u, idx)
    requires forall j :: 0 <= j < |idx| ==> idx[j] < |s| - 1
    requires forall k :: 0 <= k < |s| - 1 ==> s[k].ipPort != s[|s| - 1].ipPort
    ensures FirstIndices(s, u + [s[|s| - 1]], idx + [|s| - 1])
  {
  }

  /** The first record of the input with a given address and port is the
      one kept for it. */
  lemma FirstRecordKept(s: seq<Proxy>, k: nat)
    requires k < |s| && forall m :: 0 <= m < k ==> s[m].ipPort != s[k].ipPort
    ensures s[k] in FirstOccurrences(s)
  {
    var u := FirstOccurrences(s);
    assert exists j :: 0 <= j < |u| && u[j].ipPort == s[k].ipPort by {
      FirstOccurrencesKeys(s);
      KeysHold(s, s[k].ipPort);
      KeysHold(u, s[k].ipPort);
    }
    var j :| 0 <= j < |u| && u[j].ipPort == s[k].ipPort;
    var idx := FirstOccurrencesIndices(s);
    KeptIsFirst(s, u, idx, j, k);
  }

  lemma KeptIsFirst(s: seq<Proxy>, u: seq<Proxy>, idx: seq<nat>, j: nat, k: nat)
    requires FirstIndices(s, u, idx) && j < |u| && k < |s| && u[j].ipPort == s[k].ipPort
    requires forall m :: 0 <= m < k ==> s[m].ipPort != s[k].ipPort
    ensures u[j] == s[k]
  {
    var i := idx[j];
    assert i < |s| && u[j] == s[i];
    assert i >= k;
    assert i <= k;
  }

  /** Records whose addresses and ports are already distinct are all kept,
      so deduplicating twice changes nothing. */
  lemma {:induction false} FirstOccurrencesOfDistinct(s: seq<Proxy>)
    requires DistinctKeys(s)
    ensures FirstOccurrences(s) == s
  {
    if s != [] {
      var front := s[..|s| - 1];
      var x := s[|s| - 1];
      FirstOccurrencesOfDistinct(front);
      KeysHold(front, x.ipPort);
      forall a | 0 <= a < |front|
        ensures front[a].ipPort != x.ipPort
      {
        assert s[a] == front[a];
      }
      assert s == front + [x];
    }
  }

  lemma FirstOccurrencesIdempotent(s: seq<Proxy>)
    ensures FirstOccurrences(FirstOccurrences(s)) == FirstOccurrences(s)
  {
    FirstOccurrencesDistinct(s);
    FirstOccurrencesOfDistinct(FirstOccurrences(s));
  }

  // ---------------------------------------------------------------- scrape

  /** What `scrape_spys` returns for a browser outcome: the browser's error
      and no record, or no error and the first record of every address and
      port that the rendered rows give. */
  function Scraped(outcome: BrowserOutcome): (r: ScrapeResult)
    ensures r.error.Some? <==> outcome.Failed?
    ensures outcome.Failed? ==> r.error.value == outcome.message && r.data == []
    ensures outcome.Rendered? ==> DistinctKeys(r.data) && Keys(r.data) == Keys(Parsed(outcome.rows))
  {
    if outcome.Rendered? then
      FirstOccurrencesDistinct(Parsed(outcome.rows));
      FirstOccurrencesKeys(Parsed(outcome.rows));
      ScrapeResult(None, FirstOccurrences(Parsed(outcome.rows)))
    else
      ScrapeResult(Some(outcome.message), [])
  }

  method Scrape(outcome: BrowserOutcome) returns (r: ScrapeResult)
    ensures r == Scraped(outcome)
  {
    match outcome
    case Failed(message) =>
      r := ScrapeResult(Some(message), []);
    case Rendered(rows) =>
      var results := ParseRows(rows);
      var uniq := KeepFirst(results);
      r := ScrapeResult(None, uniq);
  }

  /** A failure carries its message and no record; a success carries no
      error, and records with distinct addresses and ports, each from a
      rendered row. */
  lemma ScrapedShape(outcome: BrowserOutcome)
    ensures outcome.Failed? ==> Scraped(outcome).error == Some(outcome.message) && Scraped(outcome).data == []
    ensures outcome.Rendered? ==> Scraped(outcome).error.None? && DistinctKeys(Scraped(outcome).data)
    ensures outcome.Rendered? ==> |Scraped(outcome).data| <= |outcome.rows|
    ensures forall j :: 0 <= j < |Scraped(outcome).data| ==> IsIpPortRecord(Scraped(outcome).data[j])
  {
    if outcome.Rendered? {
      var ps := Parsed(outcome.rows);
      FirstOccurrencesDistinct(ps);
      ParsedRecords(outcome.rows);
      var idx := FirstOccurrencesIndices(ps);
      forall j | 0 <= j < |Scraped(outcome).data|
        ensures IsIpPortRecord(Scraped(outcome).data[j])
      {
        assert Scraped(outcome).data[j] == ps[idx[j]];
      }
    }
  }
}

=== FILE: text.dfy ===
/**
  Characters and strings as the row parser of main.py sees them: the ASCII
  part of Python's character classes (`\d`, `\s`, `\w`), case folding for
  case-insensitive patterns, `str.strip()` and `str.split(sep)`.
 */
module Text {

  datatype Option<+T> = None | Some(value: T)

  function Min(a: int, b: int): int { if a <= b then a else b }

  predicate IsDigit(c: char) { '0' <= c <= '9' }

  predicate IsUpper(c: char) { 'A' <= c <= 'Z' }

  predicate IsLower(c: char) { 'a' <= c <= 'z' }

  /** A word character, as the word-boundary assertion sees it. */
  predicate IsWord(c: char) { IsDigit(c) || IsUpper(c) || IsLower(c) || c == '_' }

  /** Python's whitespace among ASCII characters: tab, line feed, vertical tab,
      form feed, carriage return, the separators 0x1C to 0x1F, and space. */
  predicate IsSpace(c: char) { c == ' ' || 9 <= c as int <= 13 || 28 <= c as int <= 31 }

  predicate IsNewline(c: char) { c == '\n' || c == '\r' }

  /** ASCII lower-casing, the folding a case-insensitive pattern applies. */
  function Lower(c: char): char
  {
    if IsUpper(c) then (c as int + 32) as char else c
  }

  /** `s` and `w` spell the same word up to ASCII case. */
  predicate SameIgnoringCase(s: string, w: string)
  {
    |s| == |w| && forall k :: 0 <= k < |s| ==> Lower(s[k]) == Lower(w[k])
  }

  /** Between `lo` and `hi` characters, all decimal digits. */
  predicate IsDecimal(s: string, lo: nat, hi: nat)
  {
    lo <= |s| <= hi && forall k :: 0 <= k < |s| ==> IsDigit(s[k])
  }

  /** The character sets over which the patterns repeat greedily. */
  datatype CharClass = Digits | DigitsAndDots | DigitsDotsPercent | ColonOrSpace | Space | NotNewline

  predicate InClass(c: char, k: CharClass)
  {
    match k
    case Digits => IsDigit(c)
    case DigitsAndDots => IsDigit(c) || c == '.'
    case DigitsDotsPercent => IsDigit(c) || c == '.' || c == '%'
    case ColonOrSpace => c == ':' || IsSpace(c)
    case Space => IsSpace(c)
    case NotNewline => !IsNewline(c)
  }

  /** How many characters a greedy repetition of class `k` consumes from
      position `i` of `t`: the longest run of class members starting there. */
  function Run(t: string, i: nat, k: CharClass): (n: nat)
    requires i <= |t|
    ensures i + n <= |t|
    ensures i + n == |t| || !InClass(t[i + n], k)
    decreases |t| - i
  {
    if i < |t| && InClass(t[i], k) then 1 + Run(t, i + 1, k) else 0
  }

  /** Every character of the run `Run` measures is a class member. */
  lemma {:induction false} RunMembers(t: string, i: nat, k: CharClass)
    requires i <= |t|
    ensures forall j :: i <= j < i + Run(t, i, k) ==> InClass(t[j], k)
    decreases |t| - i
  {
    if i < |t| && InClass(t[i], k) {
      RunMembers(t, i + 1, k);
    }
  }

  /** A run of class members ended by a non-member (or the end) is the run
      `Run` measures. */
  lemma {:induction false} RunIs(t: string, i: nat, n: nat, k: CharClass)
    requires i + n <= |t|
    requires forall j :: i <= j < i + n ==> InClass(t[j], k)
    requires i + n == |t| || !InClass(t[i + n], k)
    ensures Run(t, i, k) == n
    decreases n
  {
    if n > 0 {
      RunIs(t, i + 1, n - 1, k);
    }
  }

  /** A run of `n` class members at `i` is covered by `Run`. */
  lemma {:induction false} RunCovers(t: string, i: nat, n: nat, k: CharClass)
    requires i + n <= |t|
    requires forall j :: i <= j < i + n ==> InClass(t[j], k)
    ensures n <= Run(t, i, k)
    decreases n
  {
    if n > 0 {
      RunCovers(t, i + 1, n - 1, k);
    }
  }

  /** `s` with its trailing whitespace removed. */
  function TrimEnd(s: string): (r: string)
    ensures |r| <= |s| && r == s[..|r|]
    ensures forall j :: |r| <= j < |s| ==> IsSpace(s[j])
    ensures r == [] || !IsSpace(r[|r| - 1])
  {
    if s != [] && IsSpace(s[|s| - 1]) then TrimEnd(s[..|s| - 1]) else s
  }

  /** Python's `str.strip()`: the text between the longest whitespace prefix
      and the longest whitespace suffix. */
  function Strip(s: string): (r: string)
    ensures Run(s, 0, Space) + |r| <= |s|
    ensures r == s[Run(s, 0, Space)..Run(s, 0, Space) + |r|]
    ensures forall j :: Run(s, 0, Space) + |r| <= j < |s| ==> IsSpace(s[j])
    ensures r == [] || (!IsSpace(r[0]) && !IsSpace(r[|r| - 1]))
  {
    var a := Run(s, 0, Space);
    var r := TrimEnd(s[a..]);
    assert r != [] ==> r[0] == s[a];
    r
  }

  /** Python's `s.split(sep)` for a one-character separator: the pieces
      between consecutive separators, always at least one. */
  function Split(s: string, sep: char): (parts: seq<string>)
    ensures |parts| >= 1
    ensures forall k :: 0 <= k < |parts| ==> sep !in parts[k]
  {
    if s == [] then [[]]
    else
      var rest := Split(s[1..], sep);
      if s[0] == sep then [[]] + rest else [[s[0]] + rest[0]] + rest[1..]
  }

  /** Python's `sep.join(parts)`. */
  function Join(parts: seq<string>, sep: char): string
    requires |parts| >= 1
  {
    if |parts| == 1 then parts[0] else parts[0] + [sep] + Join(parts[1..], sep)
  }

  /** A character other than the separator that no piece holds is not in
      their join. */
  lemma {:induction false} JoinAvoids(parts: seq<string>, sep: char, c: char)
    requires |parts| >= 1 && c != sep
    requires forall k :: 0 <= k < |parts| ==> c !in parts[k]
    ensures c !in Join(parts, sep)
  {
    if |parts| > 1 {
      JoinAvoids(parts[1..], sep, c);
      assert c !in parts[1..][0];
    }
  }

  /** Joining the pieces of a split gives back the text. */
  lemma {:induction false} JoinSplit(s: string, sep: char)
    ensures Join(Split(s, sep), sep) == s
  {
    if s != [] {
      var rest := Split(s[1..], sep);
      JoinSplit(s[1..], sep);
      if s[0] == sep {
        assert Split(s, sep)[1..] == rest;
      } else if |rest| == 1 {
        assert Join(Split(s, sep), sep) == [s[0]] + rest[0];
      } else {
        var parts := Split(s, sep);
        assert parts[1..] == rest[1..];
        calc {
          Join(parts, sep);
          ([s[0]] + rest[0]) + [sep] + Join(rest[1..], sep);
          [s[0]] + (rest[0] + [sep] + Join(rest[1..], sep));
          [s[0]] + Join(rest, sep);
          [s[0]] + s[1..];
        }
      }
    }
  }

  /** A separator-free prefix merges into the first piece of the split. */
  lemma {:induction false} SplitPrefix(x: string, y: string, sep: char)
    requires sep !in x
    ensures Split(x + y, sep) == [x + Split(y, sep)[0]] + Split(y, sep)[1..]
  {
    if x != [] {
      var sy := Split(y, sep);
      SplitPrefix(x[1..], y, sep);
      assert (x + y)[0] == x[0] && (x + y)[1..] == x[1..] + y;
      var rest := Split(x[1..] + y, sep);
      assert rest[0] == x[1..] + sy[0] && rest[1..] == sy[1..];
      assert Split(x + y, sep) == [[x[0]] + rest[0]] + rest[1..];
      assert [x[0]] + (x[1..] + sy[0]) == x + sy[0];
    } else {
      var sy := Split(y, sep);
      assert x + y == y && x + sy[0] == sy[0];
      assert sy == [sy[0]] + sy[1..];
    }
  }

  /** Splitting a join of separator-free pieces gives back the pieces. */
  lemma {:induction false} SplitJoin(parts: seq<string>, sep: char)
    requires |parts| >= 1
    requires forall k :: 0 <= k < |parts| ==> sep !in parts[k]
    ensures Split(Join(parts, sep), sep) == parts
  {
    if |parts| == 1 {
      SplitPrefix(parts[0], [], sep);
      assert parts[0] + [] == parts[0];
    } else {
      var tail := Join(parts[1..], sep);
      SplitJoin(parts[1..], sep);
      SplitPrefix(parts[0], [sep] + tail, sep);
      assert parts[0] + [sep] + tail == parts[0] + ([sep] + tail);
      assert ([sep] + tail)[0] == sep && ([sep] + tail)[1..] == tail;
      assert Split([sep] + tail, sep) == [[]] + Split(tail, sep);
      assert parts[0] + [] == parts[0];
      assert parts == [parts[0]] + parts[1..];
    }
  }
}
